=== FILE: README.md ===
# KaiVoxx core, modelled in Dafny

KaiVoxx is a Discord bot. It plays music in voice channels and answers chat messages through a hosted language model. It can also speak those answers aloud with text-to-speech.

This project models the sequential decision logic at the bot's core and proves properties of it:

- **The music queue.** Each guild has a bounded FIFO `MusicQueue` of `Song`s. Queues live in a lazily filled registry.
- **Queueing a search.** A search or link becomes queued songs. A link is passed as is; anything else gets the `ytsearch:` prefix. A playlist is cut to 200 entries, and only accepted songs are counted. Because extraction errors are ignored, a playlist entry can be missing; reading it raises, after the entries before it were queued.
- **The playback lifecycle.** This covers start-if-idle with its auto-advance callback, skip, stop and leave. It also covers the now-playing buttons (pause/resume, skip, stop) and the same-voice-channel checks of commands and buttons.
- **Spoken replies.** Speech is gated on a connected voice client and length. Markup is cleaned from the text. The music is paused and resumed around the spoken clip, or stopped in the single-file version. A temporary audio file is created and cleaned up. The voice checks decide where the bot may speak.
- **Message routing.** `on_message` routes incoming text by `#ia` / `#habla` tags and by mentions of the bot. The `ia` command spots music requests by keyword. The `habla` command has a duplicate-delivery guard and a length gate.
- **Conversation memory.** Each channel keeps a bounded history with a system message in front. The model also builds the list of messages sent with a request.
- **Stream selection.** The audio stream URL is chosen from the extractor's answer, and the converter's header string is built from its headers.
- **Queue display.** The queue is shown 50 titles per page, with wrap-around page buttons. The now-playing panel shows elapsed time as `MM:SS`.

Everything that touches the outside world is a parameter of the model:

- the extractor's answer;
- whether an audio source can be built;
- whether synthesis, the temporary file write and the clip start succeed;
- the language model's reply text;
- whether joining a voice channel succeeds, both in `play` and in the spoken reply.

Strings are Dafny strings. Python's `find` and `in` work on any characters. `lower` and `strip` are modelled for ASCII letter case and whitespace only, in the `Text` module.

Modules, in dependency order:

- `Wrappers`: `Option` and `Result`.
- `Text`: strip, lower, find, character removal, decimal digits.
- `Queue`: songs and the bounded FIFO.
- `Registry`: the guild-to-queue map.
- `Search`: link detection, platform detection, and offering an extractor answer to a queue.
- `Playback`: the voice client record and the lifecycle transitions.
- `Speech`: the text-to-speech bracket and the voice decision.
- `Routing`: `on_message`.
- `IaCommands`: `detect_music_request`, `ia` and `habla`.
- `History`: conversation memory.
- `Stream`: stream-URL choice and converter options.
- `QueuePages`: paging and the elapsed-time field.

## Model

| member | source | states |
|---|---|---|
| Queue.NewSong | domain/entities/song.py:4-10 | a song carries the given url, title, requester and channel, and the source tag defaults to "YouTube" |
| Queue.Enqueue | discord_multibot.py:110-114 | accepted iff the length is below the limit; an accepted song is appended at the tail and the length grows by one; a refused song leaves the queue unchanged; the capacity invariant is kept |
| Queue.Dequeue | discord_multibot.py:116-117 | returns None exactly on an empty queue, which stays unchanged; otherwise the old contents are the returned head followed by the new contents |
| Queue.Clear | discord_multibot.py:119-120 | the length becomes zero and the limit is kept |
| Queue.ListTitles | discord_multibot.py:122-126 | one title per queued song, in queue order, as many as the queue's length |
| Queue.EnqueueAllAcceptsPrefix | discord_multibot.py:318-324 | offering a batch accepts exactly the first min(batch size, free room) songs, in order, and the count equals that number |
| Queue.DrainYieldsContents | discord_multibot.py:116-117 | dequeuing until empty yields the stored songs in stored order |
| Queue.FifoLaw | discord_multibot.py:105-126 | an empty queue gives back what it accepted in the order offered, and accepts only the first `limit` offers |
| Queue.EnqueueDequeueCommute | discord_multibot.py:110-117 | on a non-empty queue with room, enqueue then dequeue equals dequeue then enqueue |
| Queue.ListTitlesAfterEnqueue | discord_multibot.py:122-123 | an accepted enqueue adds the new title at the end of the listed titles |
| Queue.UnitScenario | tests/unit/test_queue.py:5-17 | with limit 2: two enqueues accepted, length 2, a third refused, the first song dequeued first, length 1, then 0 after clear |
| Queue.EmptyHasNoTitles | tests/unit/test_queue.py:19-21 | a fresh queue lists no titles |
| Registry.EnsureQueue | integration/queue_shim.py:5-8 | afterwards the guild is a key; an existing queue is returned and the map is unchanged; otherwise a new empty queue with capacity 500 is created; other guilds are untouched |
| Registry.EnsureQueueIdempotent | discord_multibot.py:309-312 | asking for a guild's queue twice is the same as asking once |
| Registry.EnsureQueueStable | integration/queue_shim.py:6-8 | a guild's queue is not replaced by later requests for it or for other guilds |
| Registry.ClearGuildQueue | infrastructure/discord/commands/music_commands.py:184-185 | this guild's queue ends empty with its limit kept; no key is added or removed; every other guild's queue is unchanged |
| Registry.EnsureQueueKeepsValid | discord_multibot.py:309-312 | lazy creation keeps every queue within its capacity |
| Search.ExtractorQuery | discord_multibot.py:316 | links (http://, https://, spotify:) go to the extractor unchanged; anything else gets the ytsearch: prefix |
| Search.ExtractorQueryRoundTrip | infrastructure/discord/commands/music_commands.py:122 | the user's request can be read back from the extractor query, and the query is a link exactly when the request is |
| Search.DelimiterIndex | discord_multibot.py:413 | the host part of a URL ends at the first `/`, `?` or `#`, and no earlier character is one of them |
| Search.PlatformOfHost | discord_multibot.py:414-425 | spotify.com wins, then soundcloud.com, then deezer.com, then youtube.com or youtu.be, else search; each result holds iff its fragment occurs and no earlier one does |
| Search.DetectPlatform | discord_multibot.py:409-425 | a spotify: prefix is Spotify; otherwise the platform is decided from the lower-cased host, and is search when there is no parsable host |
| Search.PlainTextIsSearch | discord_multibot.py:412-425 | text with no colon and no leading `//` has no host, so it counts as a plain search |
| Search.SpotifyUriIsUrl | discord_multibot.py:406-411 | the two classifiers agree on spotify: URIs: each is a link and its platform is Spotify |
| Search.EntryUrl | discord_multibot.py:321 | the page URL is used when it is present and non-empty; otherwise the raw url, whatever it is |
| Search.OfferedSongs | discord_multibot.py:318-329 | a non-empty entry list offers, in order, the songs of its entries up to the first missing one and at most 200; it offers all of the first min(entries, 200) iff none of them is missing; any other answer offers exactly its own song |
| Search.Present | discord_multibot.py:319-322 | the entries read before the first missing one: each is the entry at its position, and the next one, if any, is missing |
| Search.PresentStopsEarly | discord_multibot.py:319-322 | a missing entry among the first 200 ends the reading there |
| Search.OfferPlaylist | infrastructure/discord/commands/music_commands.py:125-131 | the loop offers the entries in order, stops after 200 or at the first missing entry (reported as incomplete), and counts only accepted enqueues |
| Search.OfferAnswer | infrastructure/discord/commands/music_commands.py:125-140 | the resulting queue and count are those of offering the answer's songs one after another; the answer is read to its end iff it has no missing entry among the first 200 |
| Search.OfferedCount | discord_multibot.py:318-330 | the count is at most 200 and at most the free room; for a playlist it equals min(songs offered, room), which is min(entries, 200, room) when no entry is missing; a single result gives 1 iff there was room, else 0 |
| Search.EnqueueSearch | discord_multibot.py:314-330 | the guild's queue is created first; an empty extractor answer is an error that leaves only that creation; otherwise the guild's queue is that of offering the answer, also when a missing playlist entry raises after the entries before it were queued; the count is returned only without error; other guilds are untouched |
| Playback.StartPlaybackIfNeeded | infrastructure/discord/commands/music_commands.py:149-166 | nothing changes unless the client is connected, not playing and the queue is non-empty; then exactly the head is dequeued; the current song is set and audio plays iff the source builds; on a failed build the song is dropped and nothing plays |
| Playback.PlaysInQueueOrder | discord_multibot.py:346-356 | with sources that build, the after-callback restart plays the queued songs in FIFO order |
| Playback.BuildFailureStalls | infrastructure/discord/commands/music_commands.py:164-166 | a failed build drops the dequeued song, plays nothing, and schedules no further start, so the guild stays silent |
| Playback.Skip | infrastructure/discord/commands/music_commands.py:170-176 | stops the client iff it is playing; otherwise nothing changes; queues and current song are untouched |
| Playback.SkipAdvances | discord_multibot.py:346-355 | after a skip, the callback's restart takes the next queued song |
| Playback.Stop | infrastructure/discord/commands/music_commands.py:180-188 | with a voice client: sets its music to silent, keeps the client otherwise as it was, and empties this guild's queue only; without one: no change |
| Playback.Leave | infrastructure/discord/commands/music_commands.py:39-47 | with a voice client: disconnects it and empties this guild's queue only; without one: no change |
| Playback.StopAndLeaveStayIdle | infrastructure/discord/commands/music_commands.py:178-188 | the callback fired by stop or leave starts nothing |
| Playback.StopIdempotent | infrastructure/discord/commands/music_commands.py:180-186 | stopping twice equals stopping once |
| Playback.GuardPasses | infrastructure/discord/commands/music_commands.py:13-25 | without a voice client only `play` passes; with one, a command passes iff the author is in the bot's channel |
| Playback.ValidateUserVoice | infrastructure/discord/views/now_playing.py:14-22 | refused when there is no voice client, or when the user is not in the bot's channel; valid otherwise |
| Playback.GuardMatchesButtonCheck | discord_multibot.py:609-621 | the command guard equals the button check, except that `play` also passes when there is no voice client |
| Playback.Toggle | infrastructure/discord/views/now_playing.py:28-34 | paused music resumes; other states are asked to pause; silence stays silence |
| Playback.ToggleTwice | infrastructure/discord/views/now_playing.py:24-34 | two presses of pause/resume restore the music state |
| Playback.PressButton | infrastructure/discord/views/now_playing.py:24-57 | a press is refused iff the check fails, and then nothing changes; pause/resume toggles; skip stops only a playing client; stop silences and clears only this guild's queue |
| Playback.PlayPrecheck | infrastructure/discord/commands/music_commands.py:49-67 | the refusals of play, in order: author not in voice, empty search, bot in another channel |
| Playback.PlayEntryPointsAgree | infrastructure/discord/commands/music_commands.py:102-116 | once the play guard passes, the command's missing other-channel check makes no difference |
| Playback.JoinIfNeeded | infrastructure/discord/commands/music_commands.py:69-70 | the state after a successful join: without a voice client, the bot is connected, silent, in the author's channel; with one, nothing changes |
| Playback.Join | infrastructure/discord/commands/music_commands.py:69-70 | `connect()` is attempted only without a voice client; it fails exactly when the bot has no client and the connection is refused, and otherwise gives the joined state |
| Playback.JoinSettles | infrastructure/discord/commands/music_commands.py:69-70 | after a successful join, a second join of any channel changes nothing, and a fresh join is connected in the requested channel |
| Playback.Play | infrastructure/discord/commands/music_commands.py:102-147 | a refused request changes nothing; a failed join (no voice client, `connect()` raising) ends the command with the bot unchanged and no queue created; otherwise the bot joins if needed and offers the extractor's answer: no answer is an error; a missing playlist entry is an error after queueing, with no playback; otherwise the count is that of the enqueue and playback is tried once on the result; when a song was added to an empty queue of an idle connected bot, playback is tried with the first song offered |
| Playback.Enqueued | infrastructure/discord/commands/music_commands.py:116-139 | after joining and offering an answer, the guild's queue is the offer's result, the voice clients are those after the join, and other guilds' queues are untouched |
| Playback.JoinAndEnqueue | infrastructure/discord/commands/music_commands.py:116-139 | a failed join stops with the bot unchanged; otherwise joining and offering give the bot of `Enqueued`, or only the join and the queue creation when the extractor gives nothing; the error says which way it failed |
| Playback.PlayStaysInGuild | infrastructure/discord/commands/music_commands.py:116-147 | whichever way play ends after a successful join, the bot has a voice client in the guild (the author's channel if it had none), the guild has a queue, and other guilds' queues are untouched |
| Playback.StartAfterEnqueue | infrastructure/discord/commands/music_commands.py:139-160 | once songs are accepted by an idle connected bot, playback starts (or its build fails) with the queue's head, which is the first song offered when the queue was empty |
| Playback.EnqueueAllGrows | infrastructure/discord/commands/music_commands.py:125-147 | offering songs never shrinks the queue, and a batch with an accepted song leaves it non-empty |
| Speech.CleanText | infrastructure/tts/gtts_client.py:22 | the cleaned text is the input with every `*`, `_` and backquote removed, no longer than the input, and contains none of them |
| Speech.CleanTextIdempotent | infrastructure/tts/gtts_client.py:22 | cleaning twice equals cleaning once, and markup-free text is spoken as written |
| Speech.SpeakInVoiceAsWritten | infrastructure/tts/gtts_client.py:13-80 | as written: no client, a disconnected client, an over-long text or a synthesis failure returns false with no effect; success iff every step succeeds; pause iff the music was playing; resume iff paused, clip started and still connected; the temporary file never remains |
| Speech.AsWrittenRestoresAfterClip | infrastructure/tts/gtts_client.py:58-63 | when the clip plays and the client stays connected, the voice client ends as it began |
| Speech.AsWrittenLeavesMusicPaused | infrastructure/tts/gtts_client.py:73-80 | when the clip fails to start while music played, the call returns false and the music stays paused with no resume |
| Speech.SpeakInVoice | infrastructure/tts/gtts_client.py:37-63 | corrected bracket: same gates and success condition; every pause is matched by a resume while connected, on both paths; the voice client ends as it began |
| Speech.UserPauseSurvivesSpeech | infrastructure/tts/gtts_client.py:37-46 | music the user had paused is neither paused nor resumed by speech, and stays paused |
| Speech.SpeakStopping | discord_multibot.py:235-297 | same gates; playing music is stopped (not paused) and, when speak returns, the client is silent with nothing resumed; the temporary file never remains |
| Speech.StoppingFailureRestartsQueue | discord_multibot.py:332-351 | when the clip fails to start after `vc.stop()` (line 264), the stopped track's after-callback plays the head of the queue |
| Speech.PauseVersusStop | discord_multibot.py:262-266 | after a spoken clip, the pausing version has the music playing again and the stopping version leaves it silent |
| Speech.HablaVoiceDecision | infrastructure/discord/bot_client.py:64-86 | no speech if the author is not in voice; with no client the bot joins, and a failed join refuses; a client in another channel refuses; speech only ever happens in the author's channel |
| Routing.MentionPrefixes | infrastructure/discord/bot_client.py:27-29 | no spellings when the bot's id is unknown; otherwise `<@id>` and `<@!id>` |
| Routing.AfterMention | infrastructure/discord/bot_client.py:35-44 | after a mention: text that is `ia` alone or followed by a space (any case) sets the ia flag and leaves the stripped text after those two letters; otherwise `habla` likewise sets the habla flag and leaves the stripped text after five letters; any other text sets the direct flag and is kept whole |
| Routing.FirstMention | infrastructure/discord/bot_client.py:33-45 | when no spelling matches, nothing changes; when one matches, the first matching spelling decides: the result is the mention step applied to the stripped text after it |
| Routing.ReadFlags | infrastructure/discord/bot_client.py:26-49 | some flag is set exactly when the message is for the assistant: it starts with a tag, mentions the bot, or opens with a mention spelling |
| Routing.Classify | infrastructure/discord/bot_client.py:23-61 | bot authors are ignored; a message goes only to the command parser iff it is not for the assistant; for the assistant, a prompt request iff the text left after the flags is empty once stripped, otherwise a chat with that stripped text, spoken iff the habla flag is set; speech is requested only by the habla tag or a mention |
| Routing.ProcessesCommands | infrastructure/discord/bot_client.py:50-80 | the command parser also sees the message exactly when it is not for the assistant, when it leaves an empty prompt, or when its reply was to be spoken in a server, the author is in voice, the bot has no voice client and joining fails; in the last case the message was already answered |
| Routing.SpeechDecision | infrastructure/discord/bot_client.py:63 | speech is considered iff the message asked for habla, is in a guild, and the reply has at most 180 characters; it happens only in the author's channel |
| Routing.IaTagRoutes | infrastructure/discord/bot_client.py:30-47 | `#ia p` is answered with prompt p and no speech |
| Routing.HablaTagRoutes | infrastructure/discord/bot_client.py:31-49 | `#habla p` is answered with prompt p and spoken |
| Routing.MentionHablaRoutes | infrastructure/discord/bot_client.py:33-45 | `<@id> habla p`, in any letter case, is answered with prompt p and spoken |
| Routing.BareIaTagAsks | infrastructure/discord/bot_client.py:53-57 | a bare `#ia` gets the request for a prompt |
| Routing.UntaggedGoesToCommands | infrastructure/discord/bot_client.py:30-52 | with no tag, no leading mention spelling and no mention of the bot, the message only goes to the command parser, for any bot id |
| Routing.ReadFlagsNoMention | infrastructure/discord/bot_client.py:26-49 | a message opening with no mention spelling is read by its tags alone: a leading `#ia` or `#habla` sets that flag and is cut off, and the direct flag is whether the bot is mentioned |
| Routing.ReadFlagsMention | infrastructure/discord/bot_client.py:33-49 | a message opening with a mention spelling is read from the stripped text after the first spelling it opens with: `ia` or `habla` sets that flag and is dropped, then a repeated tag of the same kind is cut; other text is a direct mention kept whole |
| Routing.DirectMentionRoutes | infrastructure/discord/bot_client.py:33-61 | `<@id> p`, for p not opening with `ia` or `habla`, is answered with p as written and not spoken |
| Routing.NicknameMentionRoutes | infrastructure/discord/bot_client.py:29-61 | the nickname spelling `<@!id> p` routes exactly like `<@id> p` |
| Routing.MidTextMentionRoutes | infrastructure/discord/bot_client.py:32-61 | a message that mentions the bot but opens with neither a tag nor a mention spelling is answered with its whole stripped text, not spoken |
| Routing.HablaJoinFailureReachesCommands | infrastructure/discord/bot_client.py:63-80 | a `#habla p` message whose voice join fails is answered with p and then also handed to the command parser |
| IaCommands.KeywordQuery | infrastructure/discord/commands/ia_commands.py:21-24 | a keyword yields a query iff it occurs in the lowered prompt; the query is stripped |
| IaCommands.KeywordQueryAtFirst | infrastructure/discord/commands/ia_commands.py:23-24 | the query is the stripped text of the prompt as typed, from just after the first occurrence of the keyword in the lowered prompt |
| IaCommands.FirstUsable | infrastructure/discord/commands/ia_commands.py:20-29 | scanning in order, None iff no query is present and non-empty; otherwise the first such query, every earlier one being unusable |
| IaCommands.FirstKeywordWins | infrastructure/discord/commands/ia_commands.py:19-27 | when the first keyword of the list leaves a non-empty remainder, that remainder is the request, whatever later keywords give |
| IaCommands.DetectMusicRequest | infrastructure/discord/commands/ia_commands.py:12-29 | over the fixed keyword list: None iff no keyword hits; otherwise the stripped, non-empty remainder of the first hit, skipping keywords with empty remainders |
| IaCommands.NoKeywordNoRequest | infrastructure/discord/commands/ia_commands.py:18-29 | a prompt containing no keyword is never a music request |
| IaCommands.RequestKeepsCase | infrastructure/discord/commands/ia_commands.py:23-24 | keywords match case-insensitively, and the query keeps the typed case: "PON Queen" gives "Queen" |
| IaCommands.KeywordInsideWord | infrastructure/discord/commands/ia_commands.py:21-27 | keywords match inside words: "responde hola" gives "de hola" |
| IaCommands.IaCommand | infrastructure/discord/commands/ia_commands.py:36-50 | the prompt always goes to the assistant; the music query is exactly what the music-request detection gives, so music is played iff some keyword hits, with a non-empty query |
| IaCommands.HablaCommand | infrastructure/discord/commands/ia_commands.py:57-131 | the in-progress set is unchanged across the call; duplicate iff the id was in the set; empty prompt asks what to say; a reply over 180 characters is not spoken; otherwise the voice checks decide |
| IaCommands.HablaDuplicateIsInert | infrastructure/discord/commands/ia_commands.py:61-62 | a delivery whose id is in progress does nothing at all |
| History.Tail | infrastructure/ia/groq_client.py:14 | Python's `s[-n:]`: a suffix of the list, of length min(n, len) for positive n, and the whole list for n = 0 |
| History.AddToHistory | infrastructure/ia/groq_client.py:9-14 | an empty conversation gets the system message first; the new message is last; the stored list is the last max_len items of the extended list; other keys unchanged |
| History.Conversation | infrastructure/ia/groq_client.py:19-21 | the kept entries contain no system message and are no more than the stored ones |
| History.ConversationAppend | infrastructure/ia/groq_client.py:19-21 | filtering distributes over concatenation, so entries keep their order |
| History.ConversationOfPlain | infrastructure/ia/groq_client.py:20-21 | a list of only user and assistant entries is kept whole |
| History.BuildMessages | infrastructure/ia/groq_client.py:18-21 | one system message first, then only user and assistant entries |
| History.BuildMessagesOfStored | discord_multibot.py:200-205 | a stored conversation with one leading system message is sent exactly as stored; once that message slides out, it is put back in front |
| History.BuildMessagesKeepsNewest | infrastructure/ia/groq_client.py:18-21 | the newest non-system entry is the last message sent |
| History.BuildMessagesEndsWithPrompt | infrastructure/ia/groq_client.py:16-21 | right after recording, the user's prompt is the last message of the request |
| History.ChatResponse | infrastructure/ia/groq_client.py:16-37 | the prompt is recorded and the request built from it; on failure the fixed error reply is returned and only the prompt stays recorded; on success the stripped reply is returned and recorded |
| History.ChatRecordsExchange | infrastructure/ia/groq_client.py:29-37 | after an exchange the conversation ends with the prompt then the reply; after a failure, with the prompt |
| Stream.SelectStreamUrl | infrastructure/ytdlp/ytdlp_client.py:30-45 | equals the reference choice; no info is an error; a top-level string url wins, and an empty one is an error; otherwise the last playable format (audio codec, non-empty url, accepted container), with an error iff there is none |
| Stream.LastPlayable | infrastructure/ytdlp/ytdlp_client.py:39-43 | None iff no format is playable; otherwise a playable format with no playable one after it |
| Stream.StreamChoice | infrastructure/ytdlp/ytdlp_client.py:30-45 | no info is the only no-info error; a chosen URL is non-empty; without a top-level url, a URL is chosen iff some format is playable |
| Stream.HeaderString | infrastructure/ytdlp/ytdlp_client.py:50-52 | the header lines are concatenated in order, each at least four characters |
| Stream.HeaderStringAppend | infrastructure/ytdlp/ytdlp_client.py:51-52 | the header string of joined lists is the join of their header strings |
| Stream.HeaderStringEmpty | infrastructure/ytdlp/ytdlp_client.py:50-52 | empty exactly when there are no headers; otherwise it ends with CR LF |
| Stream.BuildSource | infrastructure/ytdlp/ytdlp_client.py:27-53 | a source is built iff a stream URL is chosen, and then carries exactly that URL, the reconnect options and the quoted header string; otherwise the choice's error is passed on |
| QueuePages.TotalPages | discord_multibot.py:889 | at least one page; the smallest page count that holds all titles at 50 per page |
| QueuePages.ClampPage | discord_multibot.py:890 | the page is moved into range: in-range pages unchanged, negatives to 0, too-large to the last page |
| QueuePages.BuildListing | discord_multibot.py:884-897 | nothing for an empty queue; otherwise the clamped page's 1 to 50 lines, numbered from page*50+1, each with the title at that position, full unless it is the last page |
| QueuePages.EveryTitleListed | discord_multibot.py:891-893 | every title appears, with its 1-based position, on page position/50 at line position%50 |
| QueuePages.PageRangeMatchesListing | discord_multibot.py:533 | each page picker label names exactly the first and last positions its page lists |
| QueuePages.PrevPage | discord_multibot.py:556-558 | stays in range; moves back one; wraps from the first page to the last |
| QueuePages.NextPage | discord_multibot.py:570-572 | stays in range; moves forward one; wraps from the last page to the first |
| QueuePages.PrevNextInverse | discord_multibot.py:547-573 | on an in-range page, back and forward undo each other |
| QueuePages.PressPageButton | discord_multibot.py:547-573 | refused, with the check's reason, iff the user fails the panel's voice check; otherwise a notice iff the guild's queue is missing or empty; otherwise the page moves one step forward or back with wrap-around over the current queue, staying in range |
| QueuePages.PageButtonsUndo | discord_multibot.py:547-573 | with the queue unchanged and the page in range, the other page button returns to the page |
| QueuePages.Pad2 | infrastructure/discord/views/now_playing.py:83 | at least two digits, exactly two below 100, all decimal |
| QueuePages.Pad2Parses | infrastructure/discord/views/now_playing.py:83 | the padded field reads back as the number |
| QueuePages.FormatElapsed | infrastructure/discord/views/now_playing.py:81-83 | a colon separates minutes from two seconds digits; five characters under 100 minutes |
| QueuePages.SplitAfterDigits | infrastructure/discord/views/now_playing.py:83 | the first colon of the field is the one after the minute digits |
| QueuePages.FormatElapsedRoundTrip | infrastructure/discord/views/now_playing.py:83 | the MM:SS field reads back as the elapsed seconds, so minutes and seconds (0 to 59) are exact |
| Text.Strip | infrastructure/discord/bot_client.py:26 | Python `strip` on ASCII: the result has no surrounding whitespace, is no longer, and is empty iff the input is all whitespace |
| Text.Find | infrastructure/discord/commands/ia_commands.py:23 | Python `find`: Some iff the text contains the fragment, at its first occurrence |

## Left out

- Discord I/O is not modelled: sending and editing messages and embeds, embed colours, help text, connecting and disconnecting sockets, and the wiring of the page-picker widget. Only the decisions and the state they change are modelled.
- The extractor (yt-dlp), the audio converter (ffmpeg), gTTS synthesis and the Groq HTTP request are not modelled. They are foreign or network calls, so they appear as parameters: their answer or their success.
- asyncio scheduling is not modelled: `to_thread`, `create_task`, `run_coroutine_threadsafe`, the 0.1 s wait for the clip, and the 1 s now-playing refresh loop. The after-callback becomes a sequential "start again". Concurrency and wall-clock time are out, and `FormatElapsed` takes the elapsed seconds as a `nat`.
- Cookie loading and the environment-configured constants are not modelled. Queue capacity 500 and the 180-character speech limit are constants, and a queue's limit is a `nat`. A negative limit from the environment is out of scope.
- Letter case and whitespace are handled for ASCII only. Unicode `lower()` and `strip()` are out of scope.
- Search.DetectPlatform: models the host part of `urllib.parse` for the URLs the bot sees: the scheme, `//`, the bracket check, and the first `/`, `?` or `#`. The module's other edge cases are not modelled.
- History.Tail: covers non-negative `max_len` only. A negative `max_len` is never passed by the bot.
- Playback.StartPlaybackIfNeeded: keeps the current song after playback ends, as the code does. The code never clears it, so the model does not either.
- Speech.SpeakInVoice and Speech.SpeakInVoiceAsWritten: treat resume after the clip as resuming the music. In the voice library, playing the clip replaces the music player, so the real resume acts on the finished clip player. The model follows what the code intends.
- The `habla` command imports its speech function from `infrastructure/tts/elevenlabs_client.py`, which is not part of this model. `IaCommands.HablaCommand` models it up to the voice decision, and the gTTS bracket in `Speech` stands in for the speech itself.
- `limpiar_ia`, `personalidad`, `resumen`, `join`, `queue` (beyond paging), `now` and the now-playing embed are not modelled. They are message formatting or plain dictionary deletion, outside the core.
- `domain/repositories/queue_repository.py` is not part of this model. The queue modelled is the `MusicQueue` of `discord_multibot.py`, whose interface the unit test exercises.
- The page picker's parsing of the chosen value is not modelled. It is widget input; the chosen page goes through `ClampPage` when the listing is built.

## Findings

| source | as written | input that shows it | evidently intended | confidence | as-written member | corrected member |
|---|---|---|---|---|---|---|
| infrastructure/tts/gtts_client.py:73-80 | After the music is paused (lines 44-46), a failure to build or start the clip falls into the error handler. The handler removes the file and returns false without resuming. | Music playing, client connected, synthesis and file write fine, clip start raises (for instance ffmpeg missing) | Resume the music that was paused on the error path too, as the completion callback does | medium, not executed | Speech.SpeakInVoiceAsWritten (counterexample Speech.AsWrittenLeavesMusicPaused) | Speech.SpeakInVoice |

=== FILE: history.dfy ===
/** The assistant's per-channel conversation memory: appending a message
    with a bounded tail, building the message list of a request, and the
    answer path with its fixed error reply. The HTTP request is a
    parameter: its reply text, or None for any failure. */
module History {
  import opened Wrappers
  import opened Text
  import opened Queue

  datatype Role = System | User | Assistant
  datatype Message = Message(role: Role, content: string)

  /** The configured system prompt. Its wording plays no part in any
      property here, so it is left unspecified. */
  const SystemPrompt: string

  const SystemMessage: Message := Message(System, SystemPrompt)

  /** The reply sent when the assistant request fails in any way. */
  const ErrorReply: string := "❌ Tuve un problema pensando… inténtalo otra vez 💜"

  /** The default length bound of a stored conversation. */
  const DefaultMaxLen: nat := 10

  type Histories = map<string, seq<Message>>

  /** Python's `s[-n:]` for `n >= 0`: the last `n` items, or all of them
      when there are fewer, and (since `-0` is `0`) all of them when `n` is
      zero. */
  function Tail<T>(s: seq<T>, n: nat): (r: seq<T>)
    ensures n == 0 ==> r == s
    ensures n > 0 ==> |r| == Min(n, |s|)
    ensures r == s[|s| - |r|..]
  {
    if n == 0 || n >= |s| then s else s[|s| - n..]
  }

  function Stored(h: Histories, key: string): seq<Message> {
    if key in h then h[key] else []
  }

  /** `add_to_history`: an empty conversation first gets the system
      message; the new message is appended; the conversation is cut to its
      last `maxLen` messages. Other conversations are not touched. */
  function AddToHistory(h: Histories, key: string, role: Role, content: string, maxLen: nat): (r: Histories)
    ensures r.Keys == h.Keys + {key}
    ensures forall k :: k in h && k != key ==> r[k] == h[k]
    ensures var extended := (if Stored(h, key) == [] then [SystemMessage] else Stored(h, key)) + [Message(role, content)];
      r[key] == Tail(extended, maxLen)
    ensures r[key] != [] && r[key][|r[key]| - 1] == Message(role, content)
    ensures maxLen > 0 ==> |r[key]| <= maxLen
    ensures Stored(h, key) == [] && maxLen != 1 ==> r[key] == [SystemMessage, Message(role, content)]
  {
    var prior := Stored(h, key);
    var started := if prior == [] then [SystemMessage] else prior;
    h[key := Tail(started + [Message(role, content)], maxLen)]
  }

  /** The user and assistant entries of a conversation, in order. */
  function Conversation(msgs: seq<Message>): (r: seq<Message>)
    ensures |r| <= |msgs|
    ensures forall i :: 0 <= i < |r| ==> r[i].role != System
    decreases |msgs|
  {
    if msgs == [] then []
    else
      var rest := Conversation(msgs[..|msgs| - 1]);
      var last := msgs[|msgs| - 1];
      if last.role == System then rest else rest + [last]
  }

  lemma {:induction false} ConversationAppend(a: seq<Message>, b: seq<Message>)
    ensures Conversation(a + b) == Conversation(a) + Conversation(b)
    decreases |b|
  {
    if b == [] {
      assert a + b == a;
    } else {
      var init := b[..|b| - 1];
      assert (a + b)[..|a + b| - 1] == a + init;
      ConversationAppend(a, init);
    }
  }

  /** Keeping only the non-system entries keeps every one of them: a
      conversation without system messages is its own filter. */
  lemma {:induction false} ConversationOfPlain(msgs: seq<Message>)
    requires forall i :: 0 <= i < |msgs| ==> msgs[i].role != System
    ensures Conversation(msgs) == msgs
    decreases |msgs|
  {
    if msgs != [] {
      ConversationOfPlain(msgs[..|msgs| - 1]);
    }
  }

  /** The message list of a request: the system message, then the stored
      user and assistant entries in order. */
  function BuildMessages(stored: seq<Message>): (r: seq<Message>)
    ensures |r| >= 1 && r[0] == SystemMessage
    ensures forall i :: 1 <= i < |r| ==> r[i].role != System
    ensures |r| <= |stored| + 1
  {
    [SystemMessage] + Conversation(stored)
  }

  /** A stored conversation that still opens with the system message and
      holds no other is sent exactly as stored; once the system message has
      slid out of the tail, it is put back in front. */
  lemma BuildMessagesOfStored(plain: seq<Message>)
    requires forall i :: 0 <= i < |plain| ==> plain[i].role != System
    ensures BuildMessages([SystemMessage] + plain) == [SystemMessage] + plain
    ensures BuildMessages(plain) == [SystemMessage] + plain
  {
    ConversationAppend([SystemMessage], plain);
    assert Conversation([SystemMessage]) == [] by {
      assert [SystemMessage][..0] == [];
    }
    ConversationOfPlain(plain);
  }

  /** A conversation whose newest entry is not a system message is sent
      with that entry last. */
  lemma BuildMessagesKeepsNewest(stored: seq<Message>)
    requires stored != [] && stored[|stored| - 1].role != System
    ensures var msgs := BuildMessages(stored); msgs[|msgs| - 1] == stored[|stored| - 1]
  {
  }

  /** Right after the prompt is recorded, it is the last message of the
      request. */
  lemma BuildMessagesEndsWithPrompt(h: Histories, key: string, prompt: string, maxLen: nat)
    ensures var msgs := BuildMessages(AddToHistory(h, key, User, prompt, maxLen)[key]);
      msgs[|msgs| - 1] == Message(User, prompt)
  {
    BuildMessagesKeepsNewest(AddToHistory(h, key, User, prompt, maxLen)[key]);
  }

  datatype ChatResult = ChatResult(history: Histories, response: string, request: seq<Message>)

  /** `groq_chat_response`: the prompt is recorded, the request is built
      from the stored conversation, and the reply (stripped) is recorded
      and returned; on failure the fixed error reply is returned and only
      the prompt stays recorded. */
  function ChatResponse(h: Histories, key: string, prompt: string, reply: Option<string>): (r: ChatResult)
    ensures var withPrompt := AddToHistory(h, key, User, prompt, DefaultMaxLen);
      && r.request == BuildMessages(withPrompt[key])
      && (reply.None? ==> r.response == ErrorReply && r.history == withPrompt)
      && (reply.Some? ==> r.response == Strip(reply.value)
                          && r.history == AddToHistory(withPrompt, key, Assistant, r.response, DefaultMaxLen))
    ensures r.history.Keys == h.Keys + {key}
    ensures forall k :: k in h && k != key ==> r.history[k] == h[k]
  {
    var withPrompt := AddToHistory(h, key, User, prompt, DefaultMaxLen);
    var request := BuildMessages(withPrompt[key]);
    match reply
    case None => ChatResult(withPrompt, ErrorReply, request)
    case Some(text) =>
      var content := Strip(text);
      ChatResult(AddToHistory(withPrompt, key, Assistant, content, DefaultMaxLen), content, request)
  }

  /** After an exchange the stored conversation ends with the prompt and
      then the reply; after a failure it ends with the prompt alone. */
  lemma ChatRecordsExchange(h: Histories, key: string, prompt: string, reply: Option<string>)
    ensures var stored := ChatResponse(h, key, prompt, reply).history[key];
      && (reply.None? ==> stored[|stored| - 1] == Message(User, prompt))
      && (reply.Some? ==> |stored| >= 2
                          && stored[|stored| - 2] == Message(User, prompt)
                          && stored[|stored| - 1] == Message(Assistant, Strip(reply.value)))
  {
    if reply.Some? {
      var withPrompt := AddToHistory(h, key, User, prompt, DefaultMaxLen);
      var extended := withPrompt[key] + [Message(Assistant, Strip(reply.value))];
      assert |extended| >= 2;
      assert extended[|extended| - 2] == Message(User, prompt);
    }
  }
}

=== FILE: iacommands.dfy ===
/** The assistant commands: spotting a music request inside a chat prompt,
    the `ia` command that answers and then plays, and the `habla` command
    with its duplicate guard and length gate. */
module IaCommands {
  import opened Wrappers
  import opened Text
  import opened Queue
  import opened Speech

  /** The words that mark a music request, tried in this order. */
  const MusicKeywords: seq<string> := ["pon", "reproduce", "música", "canción", "playlist", "suena", "toca", "play"]

  /** The stripped text after the first occurrence of `kw` in the lowered
      prompt, cut from the prompt as typed; None if `kw` does not occur. */
  function KeywordQuery(prompt: string, kw: string): (r: Option<string>)
    ensures r.None? <==> !Contains(Lower(prompt), kw)
    ensures r.Some? ==> Stripped(r.value)
  {
    var low := Lower(prompt);
    match Find(low, kw)
    case None => None
    case Some(i) => Some(Strip(prompt[i + |kw|..]))
  }

  /** A query worth playing: present and not empty. */
  predicate Usable(q: Option<string>) {
    q.Some? && q.value != []
  }

  /** The keyword occurs and leaves something after it. */
  predicate Hit(prompt: string, kw: string) {
    Usable(KeywordQuery(prompt, kw))
  }

  /** The first usable query of a list, scanning in order. */
  function FirstUsable(qs: seq<Option<string>>): (r: Option<string>)
    ensures r.None? <==> forall j :: 0 <= j < |qs| ==> !Usable(qs[j])
    ensures r.Some? ==> exists j ::
      && 0 <= j < |qs| && Usable(qs[j])
      && (forall i :: 0 <= i < j ==> !Usable(qs[i]))
      && r == qs[j]
    decreases |qs|
  {
    if qs == [] then None
    else if Usable(qs[0]) then qs[0]
    else
      var r := FirstUsable(qs[1..]);
      assert forall j :: 1 <= j < |qs| ==> qs[j] == qs[1..][j - 1];
      if r.Some? then
        var j :| && 0 <= j < |qs[1..]| && Usable(qs[1..][j])
                 && (forall i :: 0 <= i < j ==> !Usable(qs[1..][i]))
                 && r == qs[1..][j];
        assert forall i :: 0 <= i < j + 1 ==> !Usable(qs[i]) by {
          forall i | 0 <= i < j + 1 ensures !Usable(qs[i]) {
            if i > 0 { assert qs[i] == qs[1..][i - 1]; }
          }
        }
        r
      else r
  }

  /** The query each keyword of a list would give, in list order. */
  function Queries(prompt: string, kws: seq<string>): (qs: seq<Option<string>>)
    ensures |qs| == |kws|
    ensures forall j :: 0 <= j < |kws| ==> qs[j] == KeywordQuery(prompt, kws[j])
  {
    seq(|kws|, j requires 0 <= j < |kws| => KeywordQuery(prompt, kws[j]))
  }

  /** `detect_music_request`: the query of the first keyword, in list
      order, whose remainder is non-empty; None when there is none. */
  function DetectMusicRequest(prompt: string): (r: Option<string>)
    ensures r.None? <==> forall j :: 0 <= j < |MusicKeywords| ==> !Hit(prompt, MusicKeywords[j])
    ensures r.Some? ==> exists j ::
      && 0 <= j < |MusicKeywords| && Hit(prompt, MusicKeywords[j])
      && (forall i :: 0 <= i < j ==> !Hit(prompt, MusicKeywords[i]))
      && r == KeywordQuery(prompt, MusicKeywords[j])
    ensures r.Some? ==> r.value != [] && Stripped(r.value)
  {
    ScanFindsFirstHit(prompt, MusicKeywords);
    FirstUsable(Queries(prompt, MusicKeywords))
  }

  /** Scanning the queries of a keyword list finds the first keyword that
      hits, and nothing when none does. */
  lemma ScanFindsFirstHit(prompt: string, kws: seq<string>)
    ensures var r := FirstUsable(Queries(prompt, kws));
      && (r.None? <==> forall j :: 0 <= j < |kws| ==> !Hit(prompt, kws[j]))
      && (r.Some? ==> exists j ::
            && 0 <= j < |kws| && Hit(prompt, kws[j])
            && (forall i :: 0 <= i < j ==> !Hit(prompt, kws[i]))
            && r == KeywordQuery(prompt, kws[j]))
  {
    var qs := Queries(prompt, kws);
    assert forall j :: 0 <= j < |kws| ==> (Hit(prompt, kws[j]) <==> Usable(qs[j]));
  }

  /** A prompt that contains no keyword at all is never a music request. */
  lemma NoKeywordNoRequest(prompt: string)
    requires forall j :: 0 <= j < |MusicKeywords| ==> !Contains(Lower(prompt), MusicKeywords[j])
    ensures DetectMusicRequest(prompt) == None
  {
  }

  /** The keyword is matched without regard to letter case, and the query
      keeps the letter case the user typed. */
  lemma RequestKeepsCase()
    ensures DetectMusicRequest("PON Queen") == Some("Queen")
  {
    var prompt := "PON Queen";
    assert KeywordQuery(prompt, "pon") == Some("Queen") by {
      assert Lower(prompt) == "pon queen";
      assert Find("pon queen", "pon") == Some(0) by {
        assert MatchesAt("pon queen", "pon", 0);
      }
      assert prompt[3..] == " Queen";
      StripPadded(" ", "Queen", []);
    }
    FirstKeywordWins(prompt, "Queen");
  }

  /** The first keyword of the list wins whenever it hits. */
  lemma FirstKeywordWins(prompt: string, q: string)
    requires KeywordQuery(prompt, MusicKeywords[0]) == Some(q) && q != []
    ensures DetectMusicRequest(prompt) == Some(q)
  {
    var qs := Queries(prompt, MusicKeywords);
    assert qs[0] == Some(q);
    assert FirstUsable(qs) == qs[0];
  }

  // The next three lemmas only serve the example `KeywordInsideWord`;
  // the general statement is `KeywordQueryAtFirst`.

  /** "pon" first occurs in "responde hola" at index 3. */
  lemma PonInResponde()
    ensures Find("responde hola", "pon") == Some(3)
  {
    var prompt := "responde hola";
    assert prompt[0] == 'r' && prompt[1] == 'e' && prompt[2] == 's';
    assert !MatchesAt(prompt, "pon", 0) && !MatchesAt(prompt, "pon", 1) && !MatchesAt(prompt, "pon", 2);
    assert MatchesAt(prompt, "pon", 3);
  }

  lemma RespondeQuery()
    ensures KeywordQuery("responde hola", "pon") == Some("de hola")
  {
    LowerNoCapitals("responde hola");
    PonInResponde();
    RespondeRest();
    QueryOfLowercase("responde hola", "pon", 3, "de hola");
  }

  lemma RespondeRest()
    ensures "responde hola"[6..] == "de hola"
  {
  }

  /** In a prompt typed in lower case, the query is the text after the
      first occurrence of the keyword, when that text is already stripped. */
  lemma QueryOfLowercase(prompt: string, kw: string, i: nat, rest: string)
    requires Lower(prompt) == prompt && Find(prompt, kw) == Some(i)
    requires i + |kw| <= |prompt| && prompt[i + |kw|..] == rest && Stripped(rest)
    ensures KeywordQuery(prompt, kw) == Some(rest)
  {
    FindInLowercase(prompt, kw, i);
    QueryAtMatch(prompt, kw, i);
    StripStripped(rest);
  }

  /** Where the keyword first occurs, the query is the stripped text after it. */
  lemma QueryAtMatch(prompt: string, kw: string, i: nat)
    requires Find(Lower(prompt), kw) == Some(i)
    ensures KeywordQuery(prompt, kw) == Some(Strip(prompt[i + |kw|..]))
  {
  }

  /** The query is the stripped text of the prompt after the first
      occurrence of the keyword in the lowered prompt. */
  lemma KeywordQueryAtFirst(prompt: string, kw: string, i: int)
    requires FirstOccurrence(Lower(prompt), kw, i)
    ensures KeywordQuery(prompt, kw) == Some(Strip(prompt[i + |kw|..]))
  {
    assert Find(Lower(prompt), kw) == Some(i);
    QueryAtMatch(prompt, kw, i);
  }

  lemma FindInLowercase(prompt: string, kw: string, i: nat)
    requires Lower(prompt) == prompt && Find(prompt, kw) == Some(i)
    ensures Find(Lower(prompt), kw) == Some(i)
  {
  }

  /** The keywords are matched inside words too: "responde" contains
      "pon", so a plain question can be taken for a music request. */
  lemma KeywordInsideWord()
    ensures DetectMusicRequest("responde hola") == Some("de hola")
  {
    RespondeQuery();
    FirstKeywordWins("responde hola", "de hola");
  }

  /** What the `ia` command does with a prompt: the prompt always goes to
      the assistant; a detected query is then played. */
  datatype IaActions = IaActions(chatPrompt: string, playQuery: Option<string>)

  /** `cmd_ia`: music is played exactly when some keyword occurs with a
      non-empty remainder, and then with the first such remainder. */
  function IaCommand(prompt: string): (r: IaActions)
    ensures r.chatPrompt == prompt
    ensures r.playQuery == DetectMusicRequest(prompt)
    ensures r.playQuery.Some? <==> exists j :: 0 <= j < |MusicKeywords| && Hit(prompt, MusicKeywords[j])
    ensures r.playQuery.Some? ==> r.playQuery.value != []
  {
    IaActions(prompt, DetectMusicRequest(prompt))
  }

  // ---------------------------------------------------------------------
  // `habla`
  // ---------------------------------------------------------------------

  type MessageId = int

  datatype HablaOutcome = Duplicate | AskWhatToSay | TooLongToSpeak | VoiceStep(decision: VoiceDecision)

  /** `cmd_habla`: a message already being handled is ignored; otherwise
      its id is held for the duration of the call and released at the end
      on every path. An empty prompt asks what to say; a reply longer than
      the speech limit is not spoken; otherwise the voice checks decide. */
  function HablaCommand(processing: set<MessageId>, msg: MessageId, prompt: string, response: string,
                        authorChannel: Option<ChannelId>, vcChannel: Option<ChannelId>,
                        joinOk: bool): (r: (set<MessageId>, HablaOutcome))
    ensures r.0 == processing
    ensures r.1 == Duplicate <==> msg in processing
    ensures r.1 == AskWhatToSay <==> msg !in processing && prompt == []
    ensures r.1 == TooLongToSpeak <==> msg !in processing && prompt != [] && |response| > MaxTtsChars
    ensures r.1.VoiceStep? ==>
      && |response| <= MaxTtsChars && prompt != []
      && r.1.decision == HablaVoiceDecision(authorChannel, vcChannel, joinOk)
  {
    if msg in processing then (processing, Duplicate)
    else
      var during := processing + {msg};
      var outcome :=
        if prompt == [] then AskWhatToSay
        else if |response| > MaxTtsChars then TooLongToSpeak
        else VoiceStep(HablaVoiceDecision(authorChannel, vcChannel, joinOk));
      (during - {msg}, outcome)
  }

  /** A repeated delivery of the same message is answered once: the second
      call meets the id only if the first is still running, and then does
      nothing. */
  lemma HablaDuplicateIsInert(processing: set<MessageId>, msg: MessageId, prompt: string, response: string,
                              authorChannel: Option<ChannelId>, vcChannel: Option<ChannelId>, joinOk: bool)
    requires msg in processing
    ensures HablaCommand(processing, msg, prompt, response, authorChannel, vcChannel, joinOk) == (processing, Duplicate)
  {
  }
}

=== FILE: playback.dfy ===
/** The playback lifecycle of each guild: the voice client as a record, the
    start step that pulls one song off the queue, the completion callback
    (which simply runs the start step again), skip, stop, leave, the
    same-voice-channel guards and the now-playing buttons. */
module Playback {
  import opened Wrappers
  import opened Queue
  import opened Registry
  import opened Search

  /** What the voice client is doing with music. `Paused` is not playing. */
  datatype Audio = Silent | Playing | Paused

  /** A guild's voice client: the channel it sits in, whether the connection
      is up, and the music state. */
  datatype Voice = Voice(channel: ChannelId, connected: bool, audio: Audio)

  /** Everything the music commands read and write: the queue registry,
      the last song started per guild, and the voice client per guild (a
      guild without a key has no voice client). */
  datatype Bot = Bot(queues: Queues, current: map<GuildId, Song>, voices: map<GuildId, Voice>)

  predicate IsPlaying(b: Bot, g: GuildId) {
    g in b.voices && b.voices[g].audio == Playing
  }

  // ---------------------------------------------------------------------
  // start_playback_if_needed
  // ---------------------------------------------------------------------

  datatype StartOutcome = NotStarted | Started(song: Song) | BuildFailed(song: Song)

  /** Playback starts only with a connected voice client, a non-empty queue
      and nothing playing (a paused track counts as not playing). */
  predicate ShouldStart(b: Bot, g: GuildId) {
    && g in b.voices && b.voices[g].connected
    && g in b.queues && b.queues[g].items != []
    && b.voices[g].audio != Playing
  }

  /** Take exactly one song off the queue and try to play it. `builds`
      says whether the audio source for a song can be built; when it
      cannot, the song is dropped and nothing else is tried. The current
      song is recorded only when playback starts. */
  function StartPlaybackIfNeeded(b: Bot, g: GuildId, builds: Song -> bool): (r: (Bot, StartOutcome))
    ensures r.1.NotStarted? <==> !ShouldStart(b, g)
    ensures r.1.NotStarted? ==> r.0 == b
    ensures !r.1.NotStarted? ==>
      && g in r.0.queues
      && b.queues[g].items == [r.1.song] + r.0.queues[g].items
      && r.0.queues[g].limit == b.queues[g].limit
      && r.0.queues.Keys == b.queues.Keys
      && (forall h :: h in b.queues && h != g ==> r.0.queues[h] == b.queues[h])
    ensures r.1.Started? <==> ShouldStart(b, g) && builds(b.queues[g].items[0])
    ensures r.1.Started? ==>
      && r.0.current == b.current[g := r.1.song]
      && IsPlaying(r.0, g)
      && r.0.voices == b.voices[g := b.voices[g].(audio := Playing)]
    ensures r.1.BuildFailed? ==>
      r.0.current == b.current && r.0.voices == b.voices && !IsPlaying(r.0, g)
  {
    if !ShouldStart(b, g) then (b, NotStarted)
    else
      var (q', head) := Dequeue(b.queues[g]);
      var song := head.value;
      var b1 := b.(queues := b.queues[g := q']);
      if builds(song) then
        (b1.(current := b.current[g := song],
             voices := b.voices[g := b.voices[g].(audio := Playing)]),
         Started(song))
      else (b1, BuildFailed(song))
  }

  /** The track ends (naturally, by skip or by stop): the voice client falls
      silent. The completion callback then runs `StartPlaybackIfNeeded`. */
  function FinishTrack(b: Bot, g: GuildId): Bot {
    if g in b.voices then b.(voices := b.voices[g := b.voices[g].(audio := Silent)]) else b
  }

  /** Start, then let each started track finish and the callback start the
      next, up to `n` tracks; the songs started, in order. A failed build
      arms no callback, so the chain ends there. */
  function PlayThrough(b: Bot, g: GuildId, builds: Song -> bool, n: nat): (Bot, seq<Song>)
    decreases n
  {
    if n == 0 then (b, [])
    else
      var (b1, o) := StartPlaybackIfNeeded(b, g, builds);
      if o.Started? then
        var (b2, rest) := PlayThrough(FinishTrack(b1, g), g, builds, n - 1);
        (b2, [o.song] + rest)
      else (b1, [])
  }

  /** Auto-advance plays the queue in FIFO order: with a connected idle
      voice client and sources that build, the completion callbacks start
      the first `n` queued songs one after the other, in queue order. */
  lemma {:induction false} PlaysInQueueOrder(b: Bot, g: GuildId, builds: Song -> bool, n: nat)
    requires g in b.voices && b.voices[g].connected && b.voices[g].audio != Playing
    requires g in b.queues && n <= |b.queues[g].items|
    requires forall i :: 0 <= i < n ==> builds(b.queues[g].items[i])
    ensures PlayThrough(b, g, builds, n).1 == b.queues[g].items[..n]
    decreases n
  {
    if n > 0 {
      var xs := b.queues[g].items;
      var (b1, o) := StartPlaybackIfNeeded(b, g, builds);
      assert o == Started(xs[0]);
      var b2 := FinishTrack(b1, g);
      assert b2.queues[g].items == xs[1..];
      forall i | 0 <= i < n - 1
        ensures builds(b2.queues[g].items[i])
      {
        assert b2.queues[g].items[i] == xs[i + 1];
      }
      PlaysInQueueOrder(b2, g, builds, n - 1);
      assert [xs[0]] + xs[1..][..n - 1] == xs[..n];
    }
  }

  /** A failed build stalls the guild: the song is gone, nothing plays, and
      since no callback was armed the queue waits for the next command. */
  lemma BuildFailureStalls(b: Bot, g: GuildId, builds: Song -> bool, n: nat)
    requires ShouldStart(b, g) && !builds(b.queues[g].items[0])
    ensures StartPlaybackIfNeeded(b, g, builds).1 == BuildFailed(b.queues[g].items[0])
    ensures |StartPlaybackIfNeeded(b, g, builds).0.queues[g].items| == |b.queues[g].items| - 1
    ensures PlayThrough(b, g, builds, n).1 == []
  {
  }

  // ---------------------------------------------------------------------
  // skip, stop, leave
  // ---------------------------------------------------------------------

  /** `skip` (command and button): stop the voice client only when it is
      playing; report whether it was. */
  function Skip(b: Bot, g: GuildId): (r: (Bot, bool))
    ensures r.1 <==> IsPlaying(b, g)
    ensures !r.1 ==> r.0 == b
    ensures r.1 ==> !IsPlaying(r.0, g) && r.0.queues == b.queues && r.0.current == b.current
    ensures r.1 ==>
      && r.0.voices.Keys == b.voices.Keys
      && r.0.voices[g].channel == b.voices[g].channel
      && r.0.voices[g].connected == b.voices[g].connected
      && (forall h :: h in b.voices && h != g ==> r.0.voices[h] == b.voices[h])
  {
    if IsPlaying(b, g) then (FinishTrack(b, g), true) else (b, false)
  }

  /** Skipping a playing track hands over to the next queued song: the
      callback fired by the stop takes the queue head. */
  lemma SkipAdvances(b: Bot, g: GuildId, builds: Song -> bool)
    requires IsPlaying(b, g) && b.voices[g].connected
    requires g in b.queues && b.queues[g].items != []
    ensures var o := StartPlaybackIfNeeded(Skip(b, g).0, g, builds).1;
      && !o.NotStarted? && o.song == b.queues[g].items[0]
      && (o.Started? <==> builds(b.queues[g].items[0]))
  {
  }

  /** `stop` (command and button): with a voice client, silence it and empty
      this guild's queue; other guilds are untouched. */
  function Stop(b: Bot, g: GuildId): (r: (Bot, bool))
    ensures r.1 <==> g in b.voices
    ensures !r.1 ==> r.0 == b
    ensures r.1 ==>
      && !IsPlaying(r.0, g)
      && r.0.queues.Keys == b.queues.Keys
      && (g in r.0.queues ==> r.0.queues[g].items == [])
      && (forall h :: h in b.queues && h != g ==> r.0.queues[h] == b.queues[h])
      && r.0.voices.Keys == b.voices.Keys
      && (forall h :: h in b.voices && h != g ==> r.0.voices[h] == b.voices[h])
      && r.0.current == b.current
    ensures r.1 ==> g in r.0.voices && r.0.voices[g] == b.voices[g].(audio := Silent)
  {
    if g in b.voices then
      var b1 := FinishTrack(b, g);
      (b1.(queues := ClearGuildQueue(b1.queues, g)), true)
    else (b, false)
  }

  /** `leave`: with a voice client, disconnect (the client disappears) and
      empty this guild's queue. */
  function Leave(b: Bot, g: GuildId): (r: (Bot, bool))
    ensures r.1 <==> g in b.voices
    ensures !r.1 ==> r.0 == b
    ensures r.1 ==>
      && r.0.voices == b.voices - {g}
      && r.0.queues.Keys == b.queues.Keys
      && (g in r.0.queues ==> r.0.queues[g].items == [])
      && (forall h :: h in b.queues && h != g ==> r.0.queues[h] == b.queues[h])
      && r.0.current == b.current
  {
    if g in b.voices then
      (b.(voices := b.voices - {g}, queues := ClearGuildQueue(b.queues, g)), true)
    else (b, false)
  }

  /** The callback fired by `stop` or `leave` finds nothing to do: no
      stopped guild restarts by itself. */
  lemma StopAndLeaveStayIdle(b: Bot, g: GuildId, builds: Song -> bool)
    ensures Stop(b, g).1 ==> StartPlaybackIfNeeded(Stop(b, g).0, g, builds).1 == NotStarted
    ensures Leave(b, g).1 ==> StartPlaybackIfNeeded(Leave(b, g).0, g, builds).1 == NotStarted
  {
  }

  /** Stop is idempotent. */
  lemma StopIdempotent(b: Bot, g: GuildId)
    ensures Stop(Stop(b, g).0, g).0 == Stop(b, g).0
  {
  }

  // ---------------------------------------------------------------------
  // Guards
  // ---------------------------------------------------------------------

  /** `requires_same_voice_channel_after_join`: without a voice client only
      `play` may run; with one, the author must be in its channel. */
  function GuardPasses(b: Bot, g: GuildId, command: string, authorChannel: Option<ChannelId>): (ok: bool)
    ensures g !in b.voices ==> (ok <==> command == "play")
    ensures g in b.voices ==> (ok <==> authorChannel == Some(b.voices[g].channel))
  {
    if g !in b.voices then command == "play"
    else authorChannel.Some? && authorChannel.value == b.voices[g].channel
  }

  datatype Validation = Valid | NoVoiceClient | WrongChannel

  /** `_validate_user_voice` of the buttons: a voice client must exist and
      the user must be in its channel. */
  function ValidateUserVoice(b: Bot, g: GuildId, userChannel: Option<ChannelId>): (v: Validation)
    ensures v == NoVoiceClient <==> g !in b.voices
    ensures v == Valid <==> g in b.voices && userChannel == Some(b.voices[g].channel)
  {
    if g !in b.voices then NoVoiceClient
    else if userChannel.Some? && userChannel.value == b.voices[g].channel then Valid
    else WrongChannel
  }

  /** The command guard and the button check agree except that the guard
      lets `play` through when there is no voice client yet. */
  lemma GuardMatchesButtonCheck(b: Bot, g: GuildId, command: string, ch: Option<ChannelId>)
    ensures GuardPasses(b, g, command, ch) <==>
      ValidateUserVoice(b, g, ch) == Valid || (g !in b.voices && command == "play")
  {
  }

  // ---------------------------------------------------------------------
  // Pause/resume and the now-playing buttons
  // ---------------------------------------------------------------------

  /** The pause/resume button: a paused client resumes, any other is asked
      to pause (which does nothing when no music is on). */
  function Toggle(a: Audio): (r: Audio)
    ensures a == Paused ==> r == Playing
    ensures a != Paused ==> r != Playing
    ensures r == Silent <==> a == Silent
  {
    match a
    case Paused => Playing
    case Playing => Paused
    case Silent => Silent
  }

  /** Pressing pause/resume twice restores the music state. */
  lemma ToggleTwice(a: Audio)
    ensures Toggle(Toggle(a)) == a
  {
  }

  datatype Button = PauseResumeButton | SkipButton | StopButton

  datatype ButtonReply =
    | Refused(why: Validation)
    | Resumed
    | PausedReply
    | Skipped
    | NothingPlaying
    | StoppedAndCleared

  /** A press on the now-playing view: validate the user, then act. */
  function PressButton(b: Bot, g: GuildId, userChannel: Option<ChannelId>, button: Button): (r: (Bot, ButtonReply))
    ensures r.1.Refused? <==> ValidateUserVoice(b, g, userChannel) != Valid
    ensures r.1.Refused? ==> r.0 == b && r.1.why == ValidateUserVoice(b, g, userChannel)
    ensures !r.1.Refused? ==> g in b.voices && r.0.voices.Keys == b.voices.Keys
    ensures button == PauseResumeButton && !r.1.Refused? ==>
      && r.0 == b.(voices := b.voices[g := b.voices[g].(audio := Toggle(b.voices[g].audio))])
      && (r.1 == Resumed <==> b.voices[g].audio == Paused)
    ensures button == SkipButton && !r.1.Refused? ==>
      r.0 == Skip(b, g).0 && (r.1 == Skipped <==> IsPlaying(b, g)) && (r.1 == Skipped || r.1 == NothingPlaying)
    ensures button == StopButton && !r.1.Refused? ==>
      r.0 == Stop(b, g).0 && r.1 == StoppedAndCleared
  {
    var v := ValidateUserVoice(b, g, userChannel);
    if v != Valid then (b, Refused(v))
    else
      match button
      case PauseResumeButton =>
        var vc := b.voices[g];
        (b.(voices := b.voices[g := vc.(audio := Toggle(vc.audio))]),
         if vc.audio == Paused then Resumed else PausedReply)
      case SkipButton =>
        var (b', wasPlaying) := Skip(b, g);
        (b', if wasPlaying then Skipped else NothingPlaying)
      case StopButton =>
        (Stop(b, g).0, StoppedAndCleared)
  }

  // ---------------------------------------------------------------------
  // play
  // ---------------------------------------------------------------------

  datatype PlayOutcome =
    | AuthorNotInVoice
    | MissingSearch
    | BotInOtherChannel
    | CannotJoin
    | ExtractFailed
    | BrokenPlaylist
    | Queued(added: nat, start: StartOutcome)

  /** The checks `play` makes before touching anything. `play_music` (the
      path the assistant uses) also refuses when the bot sits in another
      channel; the `play` command leaves that to its guard. */
  function PlayPrecheck(b: Bot, g: GuildId, authorChannel: Option<ChannelId>, search: string,
                        checkOtherChannel: bool): (r: Option<PlayOutcome>)
    ensures r == Some(AuthorNotInVoice) <==> authorChannel.None?
    ensures r == Some(MissingSearch) <==> authorChannel.Some? && search == ""
    ensures r == Some(BotInOtherChannel) <==>
      authorChannel.Some? && search != "" && checkOtherChannel
      && g in b.voices && b.voices[g].channel != authorChannel.value
    ensures r.None? || r == Some(AuthorNotInVoice) || r == Some(MissingSearch) || r == Some(BotInOtherChannel)
  {
    if authorChannel.None? then Some(AuthorNotInVoice)
    else if search == "" then Some(MissingSearch)
    else if checkOtherChannel && g in b.voices && b.voices[g].channel != authorChannel.value
    then Some(BotInOtherChannel)
    else None
  }

  /** Once the `play` guard has let a request through, the extra channel
      check of `play_music` cannot fire: both entry points behave alike. */
  lemma PlayEntryPointsAgree(b: Bot, g: GuildId, ch: Option<ChannelId>, search: string)
    requires GuardPasses(b, g, "play", ch)
    ensures PlayPrecheck(b, g, ch, search, true) == PlayPrecheck(b, g, ch, search, false)
  {
  }

  /** Joining the author's channel when the bot has no voice client. */
  function JoinIfNeeded(b: Bot, g: GuildId, channel: ChannelId): (r: Bot)
    ensures g in r.voices && r.queues == b.queues && r.current == b.current
    ensures g in b.voices ==> r == b
    ensures g !in b.voices ==> r.voices == b.voices[g := Voice(channel, true, Silent)]
  {
    if g in b.voices then b else b.(voices := b.voices[g := Voice(channel, true, Silent)])
  }

  /** `connect()` as `play` calls it: only a bot without a voice client
      joins, and the join may fail (`joinOk` false). A failure raises out
      of the command before the queue is created, so there is no next
      state. */
  function Join(b: Bot, g: GuildId, channel: ChannelId, joinOk: bool): (r: Option<Bot>)
    ensures r.None? <==> g !in b.voices && !joinOk
    ensures r.Some? ==> r.value == JoinIfNeeded(b, g, channel)
  {
    if g in b.voices || joinOk then Some(JoinIfNeeded(b, g, channel)) else None
  }

  /** Once joined, joining again (to any channel, whether or not a
      connection would succeed) changes nothing: the bot is already in
      the guild's voice, in the channel of the first join. */
  lemma JoinSettles(b: Bot, g: GuildId, channel: ChannelId, joinOk: bool,
                    channel2: ChannelId, joinOk2: bool)
    requires Join(b, g, channel, joinOk).Some?
    ensures var j := Join(b, g, channel, joinOk).value;
      && Join(j, g, channel2, joinOk2) == Some(j)
      && g in j.voices
      && (g !in b.voices ==> j.voices[g].channel == channel && j.voices[g].connected)
  {
  }

  /** The bot after `play` has joined and offered the extractor's answer
      to the guild's queue, before playback is tried. */
  function Enqueued(b: Bot, g: GuildId, channel: ChannelId, info: Info, requester: string,
                    textChannel: ChannelId): (r: Bot)
    ensures var j := JoinIfNeeded(b, g, channel);
      var q0 := EnsureQueue(j.queues, g).1;
      && r.voices == j.voices && r.current == b.current
      && r.queues.Keys == b.queues.Keys + {g}
      && r.queues[g] == EnqueueAll(q0, OfferedSongs(info, requester, textChannel)).0
      && (forall h :: h in b.queues && h != g ==> r.queues[h] == b.queues[h])
  {
    var j := JoinIfNeeded(b, g, channel);
    var (qs1, q0) := EnsureQueue(j.queues, g);
    j.(queues := qs1[g := EnqueueAll(q0, OfferedSongs(info, requester, textChannel)).0])
  }

  /** `play` / `play_music`: check, join the author's channel if needed,
      enqueue what the extractor returns, then try to start playback. A
      playlist with a missing entry raises after queueing the entries
      before it, and playback is not tried. */
  method Play(b: Bot, g: GuildId, authorChannel: Option<ChannelId>, requester: string,
              textChannel: ChannelId, search: string, extract: string -> Option<Info>,
              builds: Song -> bool, joinOk: bool, checkOtherChannel: bool)
    returns (b': Bot, out: PlayOutcome)
    ensures PlayPrecheck(b, g, authorChannel, search, checkOtherChannel).Some? ==>
      b' == b && out == PlayPrecheck(b, g, authorChannel, search, checkOtherChannel).value
    ensures out.CannotJoin? <==>
      PlayPrecheck(b, g, authorChannel, search, checkOtherChannel).None? && g !in b.voices && !joinOk
    ensures out.CannotJoin? ==> b' == b
    ensures out.ExtractFailed? <==>
      PlayPrecheck(b, g, authorChannel, search, checkOtherChannel).None? && (g in b.voices || joinOk)
      && extract(ExtractorQuery(search)).None?
    ensures out.ExtractFailed? ==>
      var j := JoinIfNeeded(b, g, authorChannel.value);
      b' == j.(queues := EnsureQueue(j.queues, g).0)
    ensures out.BrokenPlaylist? <==>
      PlayPrecheck(b, g, authorChannel, search, checkOtherChannel).None? && (g in b.voices || joinOk)
      && extract(ExtractorQuery(search)).Some? && Aborts(extract(ExtractorQuery(search)).value)
    ensures out.BrokenPlaylist? ==>
      b' == Enqueued(b, g, authorChannel.value, extract(ExtractorQuery(search)).value, requester, textChannel)
    ensures out.Queued? ==>
      var info := extract(ExtractorQuery(search)).value;
      var b1 := Enqueued(b, g, authorChannel.value, info, requester, textChannel);
      var q0 := EnsureQueue(JoinIfNeeded(b, g, authorChannel.value).queues, g).1;
      && out.added == EnqueueAll(q0, OfferedSongs(info, requester, textChannel)).1
      && (b', out.start) == StartPlaybackIfNeeded(b1, g, builds)
    ensures out.Queued? && out.added > 0 && !(g in b.voices && (IsPlaying(b, g) || !b.voices[g].connected)) ==>
      !out.start.NotStarted?
    ensures out.Queued? && out.added > 0 && !(g in b.voices && (IsPlaying(b, g) || !b.voices[g].connected))
            && (g !in b.queues || b.queues[g].items == []) ==>
      var songs := OfferedSongs(extract(ExtractorQuery(search)).value, requester, textChannel);
      && songs != [] && !out.start.NotStarted? && out.start.song == songs[0]
  {
    var pre := PlayPrecheck(b, g, authorChannel, search, checkOtherChannel);
    if pre.Some? {
      return b, pre.value;
    }
    var b1, joined, added := JoinAndEnqueue(b, g, authorChannel.value, joinOk, requester, textChannel,
                                            search, extract);
    if !joined {
      return b1, CannotJoin;
    }
    match added
    case Failure(NoInfo) =>
      return b1, ExtractFailed;
    case Failure(MissingEntry) =>
      return b1, BrokenPlaylist;
    case Success(n) =>
      var started := StartPlaybackIfNeeded(b1, g, builds);
      if n > 0 && !(g in b.voices && (IsPlaying(b, g) || !b.voices[g].connected)) {
        var info := extract(ExtractorQuery(search)).value;
        StartAfterEnqueue(b, g, authorChannel.value, info, requester, textChannel, builds);
      }
      b', out := started.0, Queued(n, started.1);
  }

  /** The middle of `play`: join the author's channel if needed and offer
      the extractor's answer to the guild's queue. A failed join stops
      here with the bot unchanged (`joined` false). */
  method JoinAndEnqueue(b: Bot, g: GuildId, channel: ChannelId, joinOk: bool, requester: string,
                        textChannel: ChannelId, search: string, extract: string -> Option<Info>)
    returns (b1: Bot, joined: bool, added: Result<nat, SearchError>)
    ensures joined <==> Join(b, g, channel, joinOk).Some?
    ensures !joined ==> b1 == b
    ensures joined ==> (added == Failure(NoInfo) <==> extract(ExtractorQuery(search)).None?)
    ensures joined ==> (added == Failure(MissingEntry) <==>
      extract(ExtractorQuery(search)).Some? && Aborts(extract(ExtractorQuery(search)).value))
    ensures joined && extract(ExtractorQuery(search)).None? ==>
      var j := JoinIfNeeded(b, g, channel);
      b1 == j.(queues := EnsureQueue(j.queues, g).0)
    ensures joined && extract(ExtractorQuery(search)).Some? ==>
      var info := extract(ExtractorQuery(search)).value;
      var q0 := EnsureQueue(JoinIfNeeded(b, g, channel).queues, g).1;
      && b1 == Enqueued(b, g, channel, info, requester, textChannel)
      && (added.Success? ==> added.value == EnqueueAll(q0, OfferedSongs(info, requester, textChannel)).1)
  {
    var j := Join(b, g, channel, joinOk);
    if j.None? {
      return b, false, Failure(NoInfo);
    }
    var qs;
    qs, added := EnqueueSearch(j.value.queues, g, requester, textChannel, search, extract);
    b1, joined := j.value.(queues := qs), true;
  }

  /** Whatever way `play` ends after a successful join, the bot is in a
      voice channel of the guild (the author's, if it had none), the guild
      has a queue, and other guilds' queues are untouched. A failed join
      leaves the bot as it was (see `Play`). */
  lemma PlayStaysInGuild(b: Bot, g: GuildId, channel: ChannelId, joinOk: bool, info: Info,
                         requester: string, textChannel: ChannelId, builds: Song -> bool)
    requires Join(b, g, channel, joinOk).Some?
    ensures var j := Join(b, g, channel, joinOk).value;
      var failed := j.(queues := EnsureQueue(j.queues, g).0);
      var queued := Enqueued(b, g, channel, info, requester, textChannel);
      var started := StartPlaybackIfNeeded(queued, g, builds).0;
      forall r :: r in {failed, queued, started} ==>
        && g in r.voices && g in r.queues
        && (g !in b.voices ==> r.voices[g].channel == channel)
        && (forall h :: h in b.queues && h != g ==> h in r.queues && r.queues[h] == b.queues[h])
  {
  }

  /** Once songs were accepted into the queue of a bot that is connected
      and idle, playback starts with the head of the queue, which is the
      first song offered when the queue was empty. */
  lemma StartAfterEnqueue(b: Bot, g: GuildId, channel: ChannelId, info: Info, requester: string,
                          textChannel: ChannelId, builds: Song -> bool)
    requires var q0 := EnsureQueue(JoinIfNeeded(b, g, channel).queues, g).1;
      EnqueueAll(q0, OfferedSongs(info, requester, textChannel)).1 > 0
    requires !(g in b.voices && (IsPlaying(b, g) || !b.voices[g].connected))
    ensures var st := StartPlaybackIfNeeded(Enqueued(b, g, channel, info, requester, textChannel), g, builds).1;
      && !st.NotStarted?
      && ((g !in b.queues || b.queues[g].items == []) ==>
            var songs := OfferedSongs(info, requester, textChannel);
            songs != [] && st.song == songs[0])
  {
    var q0 := EnsureQueue(JoinIfNeeded(b, g, channel).queues, g).1;
    var songs := OfferedSongs(info, requester, textChannel);
    EnqueueAllGrows(q0, songs);
    if g !in b.queues || b.queues[g].items == [] {
      EmptyQueueTakesFirst(q0, songs);
    }
  }

  /** An empty queue that accepts anything puts the first offer at its
      head. */
  lemma EmptyQueueTakesFirst(q: MusicQueue, xs: seq<Song>)
    requires q.items == [] && EnqueueAll(q, xs).1 > 0
    ensures xs != [] && EnqueueAll(q, xs).0.items != [] && EnqueueAll(q, xs).0.items[0] == xs[0]
  {
    EnqueueAllAcceptsPrefix(q, xs);
  }

  /** A batch that had at least one song accepted leaves the queue
      non-empty. */
  lemma {:induction false} EnqueueAllGrows(q: MusicQueue, xs: seq<Song>)
    ensures EnqueueAll(q, xs).1 > 0 ==> EnqueueAll(q, xs).0.items != []
    ensures |EnqueueAll(q, xs).0.items| >= |q.items|
    decreases |xs|
  {
    if xs != [] {
      EnqueueAllGrows(q, xs[..|xs| - 1]);
    }
  }
}

=== FILE: queue.dfy ===
/** The bounded per-guild music queue (`MusicQueue`) and the `Song` record
    it holds. A queue is a value: every operation returns the new queue. */
module Queue {
  import opened Wrappers

  type ChannelId = int

  /** Capacity of every queue the bot creates. */
  const MaxQueueLength: nat := 500

  /** The `source` tag a song carries unless told otherwise. */
  const DefaultSource: string := "YouTube"

  /** One requested track. `url` may be absent: a search result without a
      page or stream URL is still queued. */
  datatype Song = Song(
    url: Option<string>,
    title: string,
    requesterName: string,
    channel: ChannelId,
    source: string)

  /** A song built the way the bot builds one, with the default source tag. */
  function NewSong(url: Option<string>, title: string, requester: string, channel: ChannelId): (s: Song)
    ensures s.source == DefaultSource
    ensures s.url == url && s.title == title
    ensures s.requesterName == requester && s.channel == channel
  {
    Song(url, title, requester, channel, DefaultSource)
  }

  /** A FIFO of songs with a fixed capacity; `items[0]` plays next. */
  datatype MusicQueue = MusicQueue(items: seq<Song>, limit: nat)

  /** The capacity is never exceeded. */
  predicate Valid(q: MusicQueue) {
    |q.items| <= q.limit
  }

  function Empty(limit: nat): (q: MusicQueue)
    ensures Valid(q) && q.items == [] && q.limit == limit
  {
    MusicQueue([], limit)
  }

  function Len(q: MusicQueue): nat {
    |q.items|
  }

  /** Append at the tail unless the queue is full; report acceptance. A
      refused song leaves the queue exactly as it was. */
  function Enqueue(q: MusicQueue, s: Song): (r: (MusicQueue, bool))
    ensures r.1 <==> Len(q) < q.limit
    ensures r.1 ==> r.0.items == q.items + [s] && Len(r.0) == Len(q) + 1
    ensures !r.1 ==> r.0 == q
    ensures r.0.limit == q.limit
    ensures Valid(q) ==> Valid(r.0)
  {
    if |q.items| >= q.limit then (q, false)
    else (q.(items := q.items + [s]), true)
  }

  /** Remove and return the head, or None on an empty queue (which is left
      unchanged). */
  function Dequeue(q: MusicQueue): (r: (MusicQueue, Option<Song>))
    ensures r.1.None? <==> q.items == []
    ensures r.1.None? ==> r.0 == q
    ensures r.1.Some? ==> q.items == [r.1.value] + r.0.items
    ensures r.0.limit == q.limit
    ensures Valid(q) ==> Valid(r.0)
  {
    if q.items == [] then (q, None)
    else (q.(items := q.items[1..]), Some(q.items[0]))
  }

  function Clear(q: MusicQueue): (r: MusicQueue)
    ensures Len(r) == 0 && r.limit == q.limit && Valid(r)
  {
    q.(items := [])
  }

  /** The titles, in playback order. */
  function ListTitles(q: MusicQueue): (r: seq<string>)
    ensures |r| == Len(q)
    ensures forall i :: 0 <= i < |r| ==> r[i] == q.items[i].title
  {
    seq(|q.items|, i requires 0 <= i < |q.items| => q.items[i].title)
  }

  /** Enqueue the songs one after the other, counting those accepted. */
  function EnqueueAll(q: MusicQueue, xs: seq<Song>): (MusicQueue, nat)
    decreases |xs|
  {
    if xs == [] then (q, 0)
    else
      var (q', n) := EnqueueAll(q, xs[..|xs| - 1]);
      var (q'', ok) := Enqueue(q', xs[|xs| - 1]);
      (q'', if ok then n + 1 else n)
  }

  function Min(a: int, b: int): int {
    if a <= b then a else b
  }

  /** The free slots of a queue. */
  function Room(q: MusicQueue): nat
    requires Valid(q)
  {
    q.limit - |q.items|
  }

  /** Enqueueing a batch accepts exactly the first `Room` songs and refuses
      the rest: the count is min(|xs|, room) and the queue grows by exactly
      that prefix, in order. */
  lemma {:induction false} EnqueueAllAcceptsPrefix(q: MusicQueue, xs: seq<Song>)
    requires Valid(q)
    ensures EnqueueAll(q, xs).1 == Min(|xs|, Room(q))
    ensures EnqueueAll(q, xs).0.items == q.items + xs[..Min(|xs|, Room(q))]
    ensures EnqueueAll(q, xs).0.limit == q.limit
    decreases |xs|
  {
    if xs != [] {
      var init := xs[..|xs| - 1];
      EnqueueAllAcceptsPrefix(q, init);
      var k := Min(|init|, Room(q));
      assert init[..k] == xs[..k];
      if k < Room(q) {
        assert xs[..k + 1] == xs[..k] + [xs[|xs| - 1]];
      }
    }
  }

  /** Dequeue until empty, collecting what comes out. */
  function Drain(q: MusicQueue): seq<Song>
    decreases |q.items|
  {
    match Dequeue(q)
    case (_, None) => []
    case (q', Some(s)) => [s] + Drain(q')
  }

  /** Songs leave in the order they are stored. */
  lemma {:induction false} DrainYieldsContents(q: MusicQueue)
    ensures Drain(q) == q.items
    decreases |q.items|
  {
    if q.items != [] {
      DrainYieldsContents(Dequeue(q).0);
    }
  }

  /** FIFO law: whatever an empty queue accepts comes out of it in the order
      it was offered, and only the first `limit` offers are accepted. */
  lemma FifoLaw(limit: nat, xs: seq<Song>)
    ensures Drain(EnqueueAll(Empty(limit), xs).0) == xs[..Min(|xs|, limit)]
    ensures EnqueueAll(Empty(limit), xs).1 == Min(|xs|, limit)
  {
    var q := Empty(limit);
    var m := Min(|xs|, limit);
    EnqueueAllAcceptsPrefix(q, xs);
    assert Room(q) == limit;
    assert q.items + xs[..m] == xs[..m];
    DrainYieldsContents(EnqueueAll(q, xs).0);
  }

  /** On a non-empty queue with room, enqueue and dequeue commute. */
  lemma EnqueueDequeueCommute(q: MusicQueue, s: Song)
    requires q.items != [] && Len(q) < q.limit
    ensures Dequeue(Enqueue(q, s).0).1 == Dequeue(q).1
    ensures Dequeue(Enqueue(q, s).0).0 == Enqueue(Dequeue(q).0, s).0
  {
    assert (q.items + [s])[1..] == q.items[1..] + [s];
  }

  /** The titles of a queue after an accepted enqueue gain the new title at
      the end. */
  lemma ListTitlesAfterEnqueue(q: MusicQueue, s: Song)
    requires Len(q) < q.limit
    ensures ListTitles(Enqueue(q, s).0) == ListTitles(q) + [s.title]
  {
  }

  /** The scenario of the queue unit test: limit 2, two accepted, a third
      refused, the first title dequeued first, then cleared. */
  lemma UnitScenario(s1: Song, s2: Song, s3: Song)
    ensures var (q1, ok1) := Enqueue(Empty(2), s1);
            var (q2, ok2) := Enqueue(q1, s2);
            var (q3, ok3) := Enqueue(q2, s3);
            var (q4, out) := Dequeue(q3);
            && ok1 && ok2 && Len(q2) == 2 && !ok3
            && out == Some(s1) && Len(q4) == 1 && Len(Clear(q4)) == 0
  {
  }

  lemma EmptyHasNoTitles(limit: nat)
    ensures ListTitles(Empty(limit)) == []
  {
  }
}

=== FILE: queuepages.dfy ===
/** The paged queue listing (fifty titles per page, clamped page index,
    wrap-around navigation, page-picker labels) and the `MM:SS` elapsed
    display of the now-playing panel. */
module QueuePages {
  import opened Wrappers
  import opened Text
  import opened Queue
  import opened Registry
  import Playback

  const PerPage: nat := 50

  /** `max(1, ceil(total / 50))`: an empty queue still has one page. */
  function TotalPages(total: nat): (n: nat)
    ensures n >= 1
    ensures total == 0 ==> n == 1
    ensures total > 0 ==> (n - 1) * PerPage < total <= n * PerPage
  {
    var pages := (total + PerPage - 1) / PerPage;
    if pages < 1 then 1 else pages
  }

  /** `max(0, min(page, total_pages - 1))`. */
  function ClampPage(page: int, total: nat): (p: nat)
    ensures p < TotalPages(total)
    ensures 0 <= page < TotalPages(total) ==> p == page
    ensures page < 0 ==> p == 0
    ensures page >= TotalPages(total) ==> p == TotalPages(total) - 1
  {
    var upper := TotalPages(total) - 1;
    if page < 0 then 0 else if page > upper then upper else page
  }

  /** A rendered listing: nothing for an empty queue; otherwise the
      numbered lines of one page with its footer figures. */
  datatype Listing =
    | EmptyListing
    | PageListing(lines: seq<(nat, string)>, page: nat, totalPages: nat, total: nat)

  /** `build_queue_embed`: the requested page, clamped, shows the 1-based
      positions and titles of its slice of the queue. */
  function BuildListing(titles: seq<string>, page: int): (r: Listing)
    ensures r.EmptyListing? <==> titles == []
    ensures r.PageListing? ==>
      && r.total == |titles|
      && r.totalPages == TotalPages(|titles|)
      && r.page == ClampPage(page, |titles|)
      && 1 <= |r.lines| <= PerPage
      && r.page * PerPage + |r.lines| <= |titles|
      && (r.page + 1 < r.totalPages ==> |r.lines| == PerPage)
      && (forall i :: 0 <= i < |r.lines| ==>
            r.lines[i] == (r.page * PerPage + i + 1, titles[r.page * PerPage + i]))
  {
    if titles == [] then EmptyListing
    else
      var total := |titles|;
      var p := ClampPage(page, total);
      var start := p * PerPage;
      var end := Min(start + PerPage, total);
      var lines := seq(end - start, i requires 0 <= i < end - start => (start + i + 1, titles[start + i]));
      PageListing(lines, p, TotalPages(total), total)
  }

  /** Every title appears, with its 1-based position, on page
      `position / 50` at line `position % 50`. */
  lemma EveryTitleListed(titles: seq<string>, i: nat)
    requires i < |titles|
    ensures var r := BuildListing(titles, i / PerPage);
      && r.PageListing? && r.page == i / PerPage
      && i % PerPage < |r.lines| && r.lines[i % PerPage] == (i + 1, titles[i])
  {
  }

  /** The label of page `i` in the page picker: its first and last
      1-based positions. */
  function PageRange(i: nat, total: nat): (r: (nat, nat))
  {
    (i * PerPage + 1, Min((i + 1) * PerPage, total))
  }

  /** Each picker label names exactly the positions its page lists. */
  lemma PageRangeMatchesListing(titles: seq<string>, i: nat)
    requires titles != [] && i < TotalPages(|titles|)
    ensures var r := BuildListing(titles, i);
      && r.PageListing?
      && r.lines[0].0 == PageRange(i, |titles|).0
      && r.lines[|r.lines| - 1].0 == PageRange(i, |titles|).1
  {
  }

  /** The previous-page button: one back, wrapping from the first page to
      the last. Python's `%` with a positive divisor matches Dafny's. */
  function PrevPage(page: int, total: nat): (p: int)
    ensures 0 <= p < TotalPages(total)
    ensures 0 < page < TotalPages(total) ==> p == page - 1
    ensures page == 0 ==> p == TotalPages(total) - 1
  {
    (page - 1) % TotalPages(total)
  }

  /** The next-page button: one forward, wrapping from the last page to
      the first. */
  function NextPage(page: int, total: nat): (p: int)
    ensures 0 <= p < TotalPages(total)
    ensures 0 <= page < TotalPages(total) - 1 ==> p == page + 1
    ensures page == TotalPages(total) - 1 ==> p == 0
  {
    (page + 1) % TotalPages(total)
  }

  /** On a page in range, back and forward undo each other. */
  lemma PrevNextInverse(page: int, total: nat)
    requires 0 <= page < TotalPages(total)
    ensures PrevPage(NextPage(page, total), total) == page
    ensures NextPage(PrevPage(page, total), total) == page
  {
  }

  /** What a page button does: refused by the voice check, a notice that
      the queue is gone, or a turn to a new page. */
  datatype PageTurn = PageRefused(why: Playback.Validation) | QueueGone | Turned(page: int)

  /** The previous- and next-page buttons: the user must pass the voice
      check of the panel; a missing or empty queue is reported; otherwise
      the page moves one step, wrapping around, over the queue as it is
      now. */
  function PressPageButton(b: Playback.Bot, g: GuildId, userChannel: Option<ChannelId>,
                           page: int, forward: bool): (r: PageTurn)
    ensures r.PageRefused? <==> Playback.ValidateUserVoice(b, g, userChannel) != Playback.Valid
    ensures r.PageRefused? ==> r.why == Playback.ValidateUserVoice(b, g, userChannel)
    ensures r == QueueGone <==>
      Playback.ValidateUserVoice(b, g, userChannel) == Playback.Valid
      && (g !in b.queues || b.queues[g].items == [])
    ensures r.Turned? ==>
      && g in b.queues && b.queues[g].items != []
      && 0 <= r.page < TotalPages(|b.queues[g].items|)
      && r.page == if forward then NextPage(page, |b.queues[g].items|) else PrevPage(page, |b.queues[g].items|)
  {
    var v := Playback.ValidateUserVoice(b, g, userChannel);
    if v != Playback.Valid then PageRefused(v)
    else if g !in b.queues || b.queues[g].items == [] then QueueGone
    else
      var n := |b.queues[g].items|;
      Turned(if forward then NextPage(page, n) else PrevPage(page, n))
  }

  /** With the queue unchanged, the previous-page button undoes the
      next-page button and the other way round. */
  lemma PageButtonsUndo(b: Playback.Bot, g: GuildId, userChannel: Option<ChannelId>, page: int, forward: bool)
    requires PressPageButton(b, g, userChannel, page, forward).Turned?
    requires g in b.queues && 0 <= page < TotalPages(|b.queues[g].items|)
    ensures PressPageButton(b, g, userChannel, PressPageButton(b, g, userChannel, page, forward).page, !forward)
            == Turned(page)
  {
    PrevNextInverse(page, |b.queues[g].items|);
  }

  // ---------------------------------------------------------------------
  // Elapsed time
  // ---------------------------------------------------------------------

  /** `f"{n:02}"`: at least two digits, zero-padded. */
  function Pad2(n: nat): (r: string)
    ensures |r| >= 2 && (n < 100 ==> |r| == 2)
    ensures forall i :: 0 <= i < |r| ==> IsDigit(r[i])
  {
    if n < 10 then ['0'] + NatToString(n)
    else
      assert NatToString(n) == NatToString(n / 10) + [DigitChar(n % 10)];
      assert n < 100 ==> NatToString(n / 10) == [DigitChar(n / 10)];
      NatToString(n)
  }

  lemma Pad2Parses(n: nat)
    ensures ParseNat(Pad2(n)) == n
  {
    ParseNatToString(n);
    if n < 10 {
      ParseNatLeadingZero(NatToString(n));
    }
  }

  /** The elapsed field: whole minutes and the seconds within the minute,
      each zero-padded to two digits. */
  function FormatElapsed(elapsed: nat): (r: string)
    ensures |r| >= 5 && r[|r| - 3] == ':'
    ensures elapsed < 6000 ==> |r| == 5
  {
    Pad2(elapsed / 60) + ":" + Pad2(elapsed % 60)
  }

  predicate AllDigits(s: string) {
    forall k :: 0 <= k < |s| ==> IsDigit(s[k])
  }

  /** The two sides of the first colon. */
  function SplitAtColon(s: string): Option<(string, string)> {
    match Find(s, ":")
    case None => None
    case Some(i) => Some((s[..i], s[i + 1..]))
  }

  /** Reading an `M:S` field back: split at the first colon, both sides
      decimal digits. */
  function ParseElapsed(s: string): Option<nat> {
    match SplitAtColon(s)
    case None => None
    case Some((mm, ss)) =>
      if AllDigits(mm) && AllDigits(ss) then Some(ParseNat(mm) * 60 + ParseNat(ss)) else None
  }

  /** Digits, a colon and anything split back into the two parts: the
      first colon is the one after the digits. */
  lemma SplitAfterDigits(mm: string, ss: string)
    requires AllDigits(mm)
    ensures SplitAtColon(mm + ":" + ss) == Some((mm, ss))
  {
    var s := mm + ":" + ss;
    assert MatchesAt(s, ":", |mm|);
    forall j | 0 <= j < |mm| ensures !MatchesAt(s, ":", j) {
      assert s[j] == mm[j];
    }
    assert s[..|mm|] == mm;
    assert s[|mm| + 1..] == ss;
  }

  /** The display loses nothing: reading it back gives the elapsed
      seconds. */
  lemma FormatElapsedRoundTrip(elapsed: nat)
    ensures ParseElapsed(FormatElapsed(elapsed)) == Some(elapsed)
  {
    SplitAfterDigits(Pad2(elapsed / 60), Pad2(elapsed % 60));
    Pad2Parses(elapsed / 60);
    Pad2Parses(elapsed % 60);
  }
}

=== FILE: registry.dfy ===
/** The process-wide map from guild id to that guild's queue, with lazy
    creation on first use and per-guild clearing. */
module Registry {
  import opened Queue

  type GuildId = int
  type Queues = map<GuildId, MusicQueue>

  /** Return the guild's queue, creating an empty one with the default
      capacity on first use. Existing entries, this guild's included, are
      never replaced. */
  function EnsureQueue(qs: Queues, g: GuildId): (r: (Queues, MusicQueue))
    ensures g in r.0 && r.0[g] == r.1
    ensures r.0.Keys == qs.Keys + {g}
    ensures g in qs ==> r.0 == qs && r.1 == qs[g]
    ensures g !in qs ==> r.1 == Empty(MaxQueueLength)
    ensures forall h :: h in qs ==> r.0[h] == qs[h]
  {
    if g in qs then (qs, qs[g])
    else
      var q := Empty(MaxQueueLength);
      (qs[g := q], q)
  }

  /** Asking twice is asking once. */
  lemma EnsureQueueIdempotent(qs: Queues, g: GuildId)
    ensures EnsureQueue(EnsureQueue(qs, g).0, g) == EnsureQueue(qs, g)
  {
  }

  /** Two first requests for the same guild get the same queue, whichever
      came first, and other guilds' requests do not disturb it. */
  lemma EnsureQueueStable(qs: Queues, g: GuildId, h: GuildId)
    ensures EnsureQueue(EnsureQueue(EnsureQueue(qs, g).0, h).0, g).1 == EnsureQueue(qs, g).1
  {
  }

  /** `q = queues.get(g); if q: q.clear()`. An empty queue is falsy in the
      source and is skipped, which leaves it equally empty. The registry
      never gains a key. */
  function ClearGuildQueue(qs: Queues, g: GuildId): (r: Queues)
    ensures r.Keys == qs.Keys
    ensures g in qs ==> r[g].items == [] && r[g].limit == qs[g].limit
    ensures forall h :: h in qs && h != g ==> r[h] == qs[h]
  {
    if g in qs && |qs[g].items| > 0 then qs[g := Clear(qs[g])] else qs
  }

  /** Every queue in the registry respects its capacity. */
  predicate AllValid(qs: Queues) {
    forall h :: h in qs ==> Valid(qs[h])
  }

  lemma EnsureQueueKeepsValid(qs: Queues, g: GuildId)
    requires AllValid(qs)
    ensures AllValid(EnsureQueue(qs, g).0)
  {
  }
}

=== FILE: routing.dfy ===
/** How an incoming chat message is routed: ignored (from a bot), handed to
    the command parser, answered with a prompt request, or sent to the
    assistant, optionally to be spoken. */
module Routing {
  import opened Wrappers
  import opened Text
  import opened Queue
  import opened Speech

  /** The command prefix of the bot. */
  const BotPrefix: string := "#"
  const IaTag: string := BotPrefix + "ia"
  const HablaTag: string := BotPrefix + "habla"

  /** The two spellings of a mention of the bot, when the bot knows its own
      id. */
  function MentionPrefixes(botId: Option<string>): (r: seq<string>)
    ensures botId.None? <==> r == []
    ensures botId.Some? ==> r == ["<@" + botId.value + ">", "<@!" + botId.value + ">"]
  {
    if botId.None? then [] else ["<@" + botId.value + ">", "<@!" + botId.value + ">"]
  }

  /** The three routing flags and the text that remains of the message. */
  datatype Flags = Flags(ia: bool, habla: bool, direct: bool, content: string)

  /** A lowered text that is the word `ia`, alone or followed by a space. */
  predicate IaWord(low: string) {
    StartsWith(low, "ia ") || low == "ia"
  }

  /** A lowered text that is the word `habla`, alone or followed by a space. */
  predicate HablaWord(low: string) {
    StartsWith(low, "habla ") || low == "habla"
  }

  /** The length of the command word a lowered text opens with: 2 for
      `ia`, 5 for `habla`, 0 for neither. */
  function MentionWord(low: string): (k: nat)
    ensures k == 0 || k == 2 || k == 5
    ensures k <= |low|
    ensures k == 2 <==> IaWord(low)
    ensures k == 5 <==> !IaWord(low) && HablaWord(low)
  {
    if IaWord(low) then 2
    else if HablaWord(low) then 5
    else 0
  }

  /** The word after a leading mention: `ia` or `habla` (in any letter case,
      alone or followed by a space) set that flag and drop the word; any
      other text makes the message a direct mention. */
  function AfterMention(after: string, f: Flags): (r: Flags)
    ensures r.ia || r.habla || r.direct
    ensures r.ia == (f.ia || StartsWith(Lower(after), "ia ") || Lower(after) == "ia")
    ensures IaWord(Lower(after)) ==> r == f.(ia := true, content := Strip(after[2..]))
    ensures !IaWord(Lower(after)) && HablaWord(Lower(after)) ==>
      r == f.(habla := true, content := Strip(after[5..]))
    ensures !IaWord(Lower(after)) && !HablaWord(Lower(after)) ==> r == f.(direct := true, content := after)
  {
    var k := MentionWord(Lower(after));
    if k == 0 then f.(direct := true, content := after)
    else
      var rest := Strip(after[k..]);
      if k == 2 then f.(ia := true, content := rest) else f.(habla := true, content := rest)
  }

  /** The text opens with spelling `i` and with none listed before it. */
  predicate FirstMatch(content: string, prefixes: seq<string>, i: int) {
    && 0 <= i < |prefixes| && StartsWith(content, prefixes[i])
    && forall j :: 0 <= j < i ==> !StartsWith(content, prefixes[j])
  }

  /** Only the first mention spelling the text starts with is honoured: the
      text after it decides the flags; with no spelling the flags stay. */
  function FirstMention(prefixes: seq<string>, f: Flags): (r: Flags)
    ensures (exists i :: 0 <= i < |prefixes| && StartsWith(f.content, prefixes[i])) ==> r.ia || r.habla || r.direct
    ensures (forall i :: 0 <= i < |prefixes| ==> !StartsWith(f.content, prefixes[i])) ==> r == f
    ensures forall i :: FirstMatch(f.content, prefixes, i) ==>
      r == AfterMention(Strip(f.content[|prefixes[i]|..]), f)
    decreases |prefixes|
  {
    if prefixes == [] then f
    else if StartsWith(f.content, prefixes[0]) then
      assert forall i :: FirstMatch(f.content, prefixes, i) ==> i == 0;
      AfterMention(Strip(f.content[|prefixes[0]|..]), f)
    else
      var r := FirstMention(prefixes[1..], f);
      ShiftMatches(f.content, prefixes);
      r
  }

  /** When the first spelling does not match, the matches of the list are
      those of its tail, one position later. */
  lemma ShiftMatches(content: string, prefixes: seq<string>)
    requires prefixes != [] && !StartsWith(content, prefixes[0])
    ensures forall i :: FirstMatch(content, prefixes, i) ==> i > 0 && FirstMatch(content, prefixes[1..], i - 1)
    ensures (exists i :: 0 <= i < |prefixes| && StartsWith(content, prefixes[i])) ==>
      exists i :: 0 <= i < |prefixes[1..]| && StartsWith(content, prefixes[1..][i])
    ensures (forall i :: 0 <= i < |prefixes[1..]| ==> !StartsWith(content, prefixes[1..][i])) ==>
      forall i :: 0 <= i < |prefixes| ==> !StartsWith(content, prefixes[i])
  {
    assert forall i :: 1 <= i < |prefixes| ==> prefixes[i] == prefixes[1..][i - 1];
  }

  datatype Route = Ignored | CommandsOnly | AskForPrompt | Chat(prompt: string, habla: bool)

  /** Cuts a leading tag when its flag is set. */
  function CutTag(content: string, tag: string, flag: bool): string {
    if flag && StartsWith(content, tag) then Strip(content[|tag|..]) else content
  }

  /** The flags and remaining text after the tags and mentions are read. */
  function ReadFlags(raw: string, botId: Option<string>, mentioned: bool): (r: Flags)
    ensures (r.ia || r.habla || r.direct) <==> ForAssistant(raw, botId, mentioned)
    ensures r.habla ==>
      || StartsWith(Strip(raw), HablaTag)
      || exists i :: 0 <= i < |MentionPrefixes(botId)| && StartsWith(Strip(raw), MentionPrefixes(botId)[i])
  {
    var content := Strip(raw);
    var f0 := Flags(StartsWith(content, IaTag), StartsWith(content, HablaTag), botId.Some? && mentioned, content);
    var f1 := FirstMention(MentionPrefixes(botId), f0);
    FirstMentionFlags(MentionPrefixes(botId), f0);
    var c2 := CutTag(f1.content, IaTag, f1.ia);
    f1.(content := CutTag(c2, HablaTag, f1.habla))
  }

  /** The mention step sets a flag exactly when a flag was already set or
      a spelling matches, and sets the speech flag only on a match. */
  lemma FirstMentionFlags(prefixes: seq<string>, f: Flags)
    ensures var r := FirstMention(prefixes, f);
      var matched := exists i :: 0 <= i < |prefixes| && StartsWith(f.content, prefixes[i]);
      && ((r.ia || r.habla || r.direct) <==> (f.ia || f.habla || f.direct || matched))
      && (r.habla ==> f.habla || matched)
  {
  }

  /** Whether a message is picked up by the assistant at all: it carries
      the `#ia` or `#habla` tag, mentions the bot, or opens with a mention
      spelling of the bot. */
  predicate ForAssistant(raw: string, botId: Option<string>, mentioned: bool) {
    var content := Strip(raw);
    || StartsWith(content, IaTag)
    || StartsWith(content, HablaTag)
    || (botId.Some? && mentioned)
    || exists i :: 0 <= i < |MentionPrefixes(botId)| && StartsWith(content, MentionPrefixes(botId)[i])
  }

  /** Reference reading of a stripped message that opens with no mention
      spelling: the tag it starts with sets its flag and is cut off. */
  function TagFlags(content: string, direct: bool): Flags {
    if StartsWith(content, IaTag) then Flags(true, false, direct, Strip(content[|IaTag|..]))
    else if StartsWith(content, HablaTag) then Flags(false, true, direct, Strip(content[|HablaTag|..]))
    else Flags(false, false, direct, content)
  }

  /** Reference reading of the text `after` a leading mention: the word
      `ia` or `habla` sets that flag and is dropped, and then a repeated
      tag of the same kind is cut too; any other text is a direct mention
      and is kept whole. */
  function MentionFlags(after: string, direct: bool): Flags {
    var low := Lower(after);
    if IaWord(low) then
      var rest := Strip(after[2..]);
      Flags(true, false, direct, if StartsWith(rest, IaTag) then Strip(rest[|IaTag|..]) else rest)
    else if HablaWord(low) then
      var rest := Strip(after[5..]);
      Flags(false, true, direct, if StartsWith(rest, HablaTag) then Strip(rest[|HablaTag|..]) else rest)
    else Flags(false, false, true, after)
  }

  /** `on_message`: bots are ignored; a message not for the assistant goes
      to the command parser; one for the assistant with nothing left to
      answer gets a prompt request; anything else is answered with what
      remains after the tags and mention, and spoken if `habla` was asked
      for. */
  function Classify(authorIsBot: bool, raw: string, botId: Option<string>, mentioned: bool): (r: Route)
    ensures r == Ignored <==> authorIsBot
    ensures r == CommandsOnly <==> !authorIsBot && !ForAssistant(raw, botId, mentioned)
    ensures !authorIsBot && ForAssistant(raw, botId, mentioned) ==>
      var f := ReadFlags(raw, botId, mentioned);
      && (r == AskForPrompt <==> Strip(f.content) == [])
      && (Strip(f.content) != [] ==> r == Chat(Strip(f.content), f.habla))
    ensures r.Chat? ==> r.prompt != [] && Stripped(r.prompt)
    ensures r.Chat? && r.habla ==>
      || StartsWith(Strip(raw), HablaTag)
      || exists i :: 0 <= i < |MentionPrefixes(botId)| && StartsWith(Strip(raw), MentionPrefixes(botId)[i])
  {
    if authorIsBot then Ignored
    else
      var f := ReadFlags(raw, botId, mentioned);
      if !(f.ia || f.habla || f.direct) then CommandsOnly
      else
        var prompt := Strip(f.content);
        if prompt == [] then AskForPrompt else Chat(prompt, f.habla)
  }

  /** Whether the command parser also sees the message: one not for the
      assistant, one left without a prompt, and one whose reply was to be
      spoken but whose voice join failed. */
  function ProcessesCommands(authorIsBot: bool, raw: string, botId: Option<string>, mentioned: bool,
                             inGuild: bool, response: string, authorChannel: Option<ChannelId>,
                             vcChannel: Option<ChannelId>, joinOk: bool): (b: bool)
    ensures b <==>
      && !authorIsBot
      && (|| !ForAssistant(raw, botId, mentioned)
          || Strip(ReadFlags(raw, botId, mentioned).content) == []
          || (&& ReadFlags(raw, botId, mentioned).habla && inGuild && |response| <= MaxTtsChars
              && authorChannel.Some? && vcChannel.None? && !joinOk))
  {
    var r := Classify(authorIsBot, raw, botId, mentioned);
    || r.CommandsOnly? || r.AskForPrompt?
    || SpeechDecision(r, inGuild, response, authorChannel, vcChannel, joinOk) == Some(JoinFailed)
  }

  /** The reply is spoken only for `habla`, in a server, and when short
      enough; then the shared voice checks decide where. */
  function SpeechDecision(r: Route, inGuild: bool, response: string,
                          authorChannel: Option<ChannelId>, vcChannel: Option<ChannelId>,
                          joinOk: bool): (d: Option<VoiceDecision>)
    ensures d.Some? <==> r.Chat? && r.habla && inGuild && |response| <= MaxTtsChars
    ensures d.Some? && d.value.SpeakIn? ==> authorChannel == Some(d.value.channel)
  {
    if r.Chat? && r.habla && inGuild && |response| <= MaxTtsChars then
      Some(HablaVoiceDecision(authorChannel, vcChannel, joinOk))
    else None
  }

  // ---------------------------------------------------------------------
  // Routing of concrete message shapes
  // ---------------------------------------------------------------------

  lemma MentionPrefixesStartWithAngle(botId: Option<string>, i: int)
    requires 0 <= i < |MentionPrefixes(botId)|
    ensures MentionPrefixes(botId)[i][0] == '<'
  {
  }

  /** A text starting with `#` matches no mention spelling. */
  lemma HashMatchesNoMention(content: string, botId: Option<string>)
    requires content != [] && content[0] == '#'
    ensures forall i :: 0 <= i < |MentionPrefixes(botId)| ==> !StartsWith(content, MentionPrefixes(botId)[i])
  {
    forall i | 0 <= i < |MentionPrefixes(botId)|
      ensures !StartsWith(content, MentionPrefixes(botId)[i])
    {
      MentionPrefixesStartWithAngle(botId, i);
    }
  }

  /** A word, a space and a stripped text need no stripping. */
  lemma JoinIsStripped(a: string, b: string)
    requires a != [] && !IsSpace(a[0]) && b != [] && Stripped(b)
    ensures Stripped(a + " " + b)
  {
    var raw := a + " " + b;
    assert raw[|raw| - 1] == b[|b| - 1];
    assert raw[0] == a[0];
  }

  lemma JoinStripped(a: string, b: string)
    requires a != [] && !IsSpace(a[0]) && b != [] && Stripped(b)
    ensures Strip(a + " " + b) == a + " " + b
  {
    JoinIsStripped(a, b);
    StripStripped(a + " " + b);
  }

  /** A tagged message starts with its own tag and not the other one. */
  lemma TaggedStartsWith(tag: string, p: string)
    requires tag == IaTag || tag == HablaTag
    ensures StartsWith(tag + " " + p, IaTag) <==> tag == IaTag
    ensures StartsWith(tag + " " + p, HablaTag) <==> tag == HablaTag
  {
    var raw := tag + " " + p;
    assert raw[..|tag|] == tag;
    assert raw[1] == tag[1];
  }

  /** Cutting off a leading word and stripping leaves the text after it. */
  lemma CutWord(tag: string, p: string)
    requires p != [] && Stripped(p)
    ensures Strip((tag + " " + p)[|tag|..]) == p
  {
    ConcatAssoc(tag, " ", p);
    DropPrefix(tag, " " + p);
    StripAfterSpace(p);
  }

  /** A message starting with `#` keeps the flags its tags gave it: no
      mention spelling applies. */
  lemma HashKeepsFlags(raw: string, botId: Option<string>, mentioned: bool, ia: bool, habla: bool)
    requires raw != [] && raw[0] == '#'
    ensures var f := Flags(ia, habla, botId.Some? && mentioned, raw);
      FirstMention(MentionPrefixes(botId), f) == f
  {
    HashMatchesNoMention(raw, botId);
  }

  lemma IaTagFlags(p: string, botId: Option<string>, mentioned: bool)
    requires p != [] && Stripped(p)
    ensures ReadFlags(IaTag + " " + p, botId, mentioned) == Flags(true, false, botId.Some? && mentioned, p)
  {
    var raw := IaTag + " " + p;
    JoinStripped(IaTag, p);
    TaggedStartsWith(IaTag, p);
    CutWord(IaTag, p);
    assert raw[0] == '#';
    HashKeepsFlags(raw, botId, mentioned, true, false);
  }

  lemma HablaTagFlags(p: string, botId: Option<string>, mentioned: bool)
    requires p != [] && Stripped(p)
    ensures ReadFlags(HablaTag + " " + p, botId, mentioned) == Flags(false, true, botId.Some? && mentioned, p)
  {
    var raw := HablaTag + " " + p;
    JoinStripped(HablaTag, p);
    TaggedStartsWith(HablaTag, p);
    CutWord(HablaTag, p);
    assert raw[0] == '#';
    HashKeepsFlags(raw, botId, mentioned, false, true);
  }

  /** `#ia <prompt>` is answered with the prompt, not spoken. */
  lemma IaTagRoutes(p: string, botId: Option<string>, mentioned: bool)
    requires p != [] && Stripped(p)
    ensures Classify(false, IaTag + " " + p, botId, mentioned) == Chat(p, false)
  {
    IaTagFlags(p, botId, mentioned);
    StripStripped(p);
  }

  /** `#habla <prompt>` is answered with the prompt and spoken. */
  lemma HablaTagRoutes(p: string, botId: Option<string>, mentioned: bool)
    requires p != [] && Stripped(p)
    ensures Classify(false, HablaTag + " " + p, botId, mentioned) == Chat(p, true)
  {
    HablaTagFlags(p, botId, mentioned);
    StripStripped(p);
  }

  /** The text after a mention: the word `habla` in any letter case, a
      space and the prompt, sets the speech flag and leaves the prompt. */
  lemma HablaWordAfterMention(w: string, p: string, f: Flags)
    requires Lower(w) == "habla" && p != [] && Stripped(p)
    ensures AfterMention(w + " " + p, f) == f.(habla := true, content := p)
  {
    var after := w + " " + p;
    LowerHablaWord(w, p);
    AfterMentionHabla(after, f);
    assert |w| == 5;
    ConcatAssoc(w, " ", p);
    DropPrefix(w, " " + p);
    StripAfterSpace(p);
  }

  /** The `habla` branch of the mention step. */
  lemma AfterMentionHabla(after: string, f: Flags)
    requires StartsWith(Lower(after), "habla ") && !StartsWith(Lower(after), "ia ") && Lower(after) != "ia"
    ensures AfterMention(after, f) == f.(habla := true, content := Strip(after[5..]))
  {
    assert MentionWord(Lower(after)) == 5;
  }

  /** The lowered text after the mention opens with `habla `. */
  lemma LowerHablaWord(w: string, p: string)
    requires Lower(w) == "habla"
    ensures var low := Lower(w + " " + p);
      && StartsWith(low, "habla ") && !StartsWith(low, "ia ") && low != "ia"
  {
    var low := Lower(w + " " + p);
    assert |w| == 5;
    forall i | 0 <= i < 5 ensures low[i] == "habla "[i] {
      assert (w + " " + p)[i] == w[i];
      assert Lower(w)[i] == LowerChar(w[i]);
    }
    assert (w + " " + p)[5] == ' ';
    assert low[..6] == "habla ";
    assert low[0] == 'h';
  }

  /** `<mention> w p` needs no stripping. */
  lemma MentionStripped(mp: string, w: string, p: string)
    requires |mp| > 0 && mp[0] == '<'
    requires |w| > 0 && !IsSpace(w[0]) && p != [] && Stripped(p)
    ensures Strip(mp + (" " + (w + " " + p))) == mp + (" " + (w + " " + p))
  {
    JoinIsStripped(w, p);
    JoinStripped(mp, w + " " + p);
    ConcatAssoc(mp, " ", w + " " + p);
  }

  /** `<mention> w p` carries no tag and opens with the mention. */
  lemma MentionNoTag(mp: string, rest: string)
    requires |mp| > 0 && mp[0] == '<'
    ensures !StartsWith(mp + rest, IaTag) && !StartsWith(mp + rest, HablaTag)
    ensures StartsWith(mp + rest, mp)
  {
    assert (mp + rest)[0] == '<';
    assert (mp + rest)[..|mp|] == mp;
  }

  /** After the mention, `w p` remains once stripped. */
  lemma MentionRest(mp: string, w: string, p: string)
    requires |w| > 0 && !IsSpace(w[0]) && p != [] && Stripped(p)
    ensures Strip((mp + (" " + (w + " " + p)))[|mp|..]) == w + " " + p
  {
    JoinIsStripped(w, p);
    DropPrefix(mp, " " + (w + " " + p));
    StripAfterSpace(w + " " + p);
  }

  /** The mention step on `<mention> w p` with `w` spelling `habla`. */
  lemma MentionHablaStep(mp: string, w: string, p: string, f0: Flags, prefixes: seq<string>)
    requires |mp| > 0 && mp[0] == '<' && prefixes != [] && prefixes[0] == mp
    requires Lower(w) == "habla" && p != [] && Stripped(p)
    requires f0.content == mp + (" " + (w + " " + p))
    ensures FirstMention(prefixes, f0) == f0.(habla := true, content := p)
  {
    assert !IsSpace(w[0]) by { assert LowerChar(w[0]) == 'h'; }
    MentionNoTag(mp, " " + (w + " " + p));
    MentionRest(mp, w, p);
    HablaWordAfterMention(w, p, f0);
  }

  /** The message text split at the mention. */
  lemma MentionSplit(id: string, w: string, p: string)
    ensures "<@" + id + "> " + w + " " + p == ("<@" + id + ">") + (" " + (w + " " + p))
  {
  }

  /** Reading the flags of `<mention> w p`, with `w` spelling `habla`. */
  lemma MentionHablaRead(raw: string, mp: string, w: string, p: string, botId: Option<string>, mentioned: bool)
    requires botId.Some? && MentionPrefixes(botId)[0] == mp && |mp| > 0 && mp[0] == '<'
    requires raw == mp + (" " + (w + " " + p))
    requires Lower(w) == "habla" && p != [] && Stripped(p) && !StartsWith(p, HablaTag)
    ensures ReadFlags(raw, botId, mentioned) == Flags(false, true, mentioned, p)
  {
    assert !IsSpace(w[0]) by { assert LowerChar(w[0]) == 'h'; }
    MentionStripped(mp, w, p);
    MentionNoTag(mp, " " + (w + " " + p));
    MentionHablaStep(mp, w, p, Flags(false, false, mentioned, raw), MentionPrefixes(botId));
  }

  lemma MentionHablaFlags(id: string, w: string, p: string, mentioned: bool)
    requires Lower(w) == "habla" && p != [] && Stripped(p) && !StartsWith(p, HablaTag)
    ensures ReadFlags("<@" + id + "> " + w + " " + p, Some(id), mentioned) == Flags(false, true, mentioned, p)
  {
    MentionSplit(id, w, p);
    MentionHablaRead("<@" + id + "> " + w + " " + p, "<@" + id + ">", w, p, Some(id), mentioned);
  }

  /** A mention of the bot followed by `habla` (in any letter case) and a
      prompt is answered and spoken, like the `#habla` tag, unless the
      prompt itself starts with the tag (which is cut off as well). */
  lemma MentionHablaRoutes(id: string, w: string, p: string, mentioned: bool)
    requires Lower(w) == "habla" && p != [] && Stripped(p) && !StartsWith(p, HablaTag)
    ensures Classify(false, "<@" + id + "> " + w + " " + p, Some(id), mentioned) == Chat(p, true)
  {
    MentionHablaFlags(id, w, p, mentioned);
    StripStripped(p);
  }

  /** A bare tag leaves nothing to answer: the bot asks for a prompt. */
  lemma BareIaTagAsks(botId: Option<string>, mentioned: bool)
    ensures Classify(false, IaTag, botId, mentioned) == AskForPrompt
  {
    var raw := IaTag;
    assert Stripped(raw);
    StripStripped(raw);
    assert !StartsWith(raw, HablaTag);
    HashKeepsFlags(raw, botId, mentioned, true, false);
    assert raw[|IaTag|..] == [];
    assert Strip([]) == [];
  }

  /** A message neither tagged nor mentioning the bot in any way is left
      to the command parser, whatever it says. */
  lemma UntaggedGoesToCommands(raw: string, botId: Option<string>, mentioned: bool)
    requires !StartsWith(Strip(raw), IaTag) && !StartsWith(Strip(raw), HablaTag)
    requires forall i :: 0 <= i < |MentionPrefixes(botId)| ==> !StartsWith(Strip(raw), MentionPrefixes(botId)[i])
    requires !(botId.Some? && mentioned)
    ensures Classify(false, raw, botId, mentioned) == CommandsOnly
  {
  }

  // ---------------------------------------------------------------------
  // The flags of every message, case by case
  // ---------------------------------------------------------------------

  /** The two tags exclude each other. */
  lemma TagsExclusive(content: string)
    ensures !(StartsWith(content, IaTag) && StartsWith(content, HablaTag))
  {
    if StartsWith(content, IaTag) {
      assert content[1] == content[..3][1] == 'i';
      assert |HablaTag| <= |content| ==> content[..|HablaTag|][1] == content[1];
    }
  }

  /** A text opening with `<` carries no tag. */
  lemma AngleHasNoTag(content: string)
    requires content != [] && content[0] == '<'
    ensures !StartsWith(content, IaTag) && !StartsWith(content, HablaTag)
  {
    assert |IaTag| <= |content| ==> content[..|IaTag|][0] == '<';
    assert |HablaTag| <= |content| ==> content[..|HablaTag|][0] == '<';
  }

  /** The mention step followed by the tag cuts gives the reference
      reading of the text after the mention. */
  lemma AfterMentionCut(after: string, direct: bool, content: string)
    ensures var f1 := AfterMention(after, Flags(false, false, direct, content));
      f1.(content := CutTag(CutTag(f1.content, IaTag, f1.ia), HablaTag, f1.habla)) == MentionFlags(after, direct)
  {
  }

  /** A message that opens with no mention spelling is read by its tags
      alone. */
  lemma ReadFlagsNoMention(raw: string, botId: Option<string>, mentioned: bool)
    requires forall i :: 0 <= i < |MentionPrefixes(botId)| ==> !StartsWith(Strip(raw), MentionPrefixes(botId)[i])
    ensures ReadFlags(raw, botId, mentioned) == TagFlags(Strip(raw), botId.Some? && mentioned)
  {
    TagsExclusive(Strip(raw));
  }

  /** A message that opens with a mention spelling is read from the text
      after the first spelling it opens with. */
  lemma ReadFlagsMention(raw: string, botId: Option<string>, mentioned: bool, i: int)
    requires FirstMatch(Strip(raw), MentionPrefixes(botId), i)
    ensures var mp := MentionPrefixes(botId)[i];
      ReadFlags(raw, botId, mentioned) == MentionFlags(Strip(Strip(raw)[|mp|..]), botId.Some? && mentioned)
  {
    var content := Strip(raw);
    var mps := MentionPrefixes(botId);
    var direct := botId.Some? && mentioned;
    MentionOpensUntagged(content, botId, i);
    ReadFlagsUntagged(raw, botId, mentioned);
    var f0 := Flags(false, false, direct, content);
    var after := Strip(content[|mps[i]|..]);
    FirstMentionAt(mps, f0, i);
    AfterMentionCut(after, direct, content);
  }

  /** A text opening with a mention spelling carries no tag. */
  lemma MentionOpensUntagged(content: string, botId: Option<string>, i: int)
    requires FirstMatch(content, MentionPrefixes(botId), i)
    ensures !StartsWith(content, IaTag) && !StartsWith(content, HablaTag)
  {
    var mp := MentionPrefixes(botId)[i];
    MentionPrefixesStartWithAngle(botId, i);
    assert content[..|mp|][0] == '<';
    AngleHasNoTag(content);
  }

  /** A message with no tag is read by the mention step and the tag cuts
      alone. */
  lemma ReadFlagsUntagged(raw: string, botId: Option<string>, mentioned: bool)
    requires !StartsWith(Strip(raw), IaTag) && !StartsWith(Strip(raw), HablaTag)
    ensures var f1 := FirstMention(MentionPrefixes(botId), Flags(false, false, botId.Some? && mentioned, Strip(raw)));
      ReadFlags(raw, botId, mentioned) == f1.(content := CutTag(CutTag(f1.content, IaTag, f1.ia), HablaTag, f1.habla))
  {
  }

  /** The mention step at the first matching spelling. */
  lemma FirstMentionAt(prefixes: seq<string>, f: Flags, i: int)
    requires FirstMatch(f.content, prefixes, i)
    ensures FirstMention(prefixes, f) == AfterMention(Strip(f.content[|prefixes[i]|..]), f)
  {
  }

  /** The text of `<mention> p`, split at the mention. */
  lemma MentionJoin(mp: string, p: string)
    requires |mp| > 0 && mp[0] == '<' && p != [] && Stripped(p)
    ensures Strip(mp + (" " + p)) == mp + (" " + p)
    ensures StartsWith(mp + (" " + p), mp)
    ensures Strip((mp + (" " + p))[|mp|..]) == p
  {
    JoinStripped(mp, p);
    ConcatAssoc(mp, " ", p);
    MentionNoTag(mp, " " + p);
    DropPrefix(mp, " " + p);
    StripAfterSpace(p);
  }

  /** After a mention, text that is neither `ia` nor `habla` is a direct
      mention, kept whole. */
  lemma DirectAfterMention(p: string, direct: bool)
    requires !IaWord(Lower(p)) && !HablaWord(Lower(p))
    ensures MentionFlags(p, direct) == Flags(false, false, true, p)
  {
  }

  /** The route of a message whose flags pick it up and leave text. */
  lemma RouteOfFlags(raw: string, botId: Option<string>, mentioned: bool, f: Flags)
    requires ReadFlags(raw, botId, mentioned) == f && (f.ia || f.habla || f.direct) && Strip(f.content) != []
    ensures Classify(false, raw, botId, mentioned) == Chat(Strip(f.content), f.habla)
  {
  }

  /** The flags of `<mention> p`. */
  lemma DirectMentionFlags(raw: string, mp: string, p: string, botId: Option<string>, mentioned: bool, i: int)
    requires FirstMatch(raw, MentionPrefixes(botId), i) && MentionPrefixes(botId)[i] == mp
    requires Strip(raw) == raw && Strip(raw[|mp|..]) == p
    requires !IaWord(Lower(p)) && !HablaWord(Lower(p))
    ensures ReadFlags(raw, botId, mentioned) == Flags(false, false, true, p)
  {
    ReadFlagsMention(raw, botId, mentioned, i);
    DirectAfterMention(p, botId.Some? && mentioned);
  }

  /** The route of `<mention> p` once its flags are known. */
  lemma DirectMentionStep(raw: string, mp: string, p: string, botId: Option<string>, mentioned: bool, i: int)
    requires FirstMatch(raw, MentionPrefixes(botId), i) && MentionPrefixes(botId)[i] == mp
    requires Strip(raw) == raw && Strip(raw[|mp|..]) == p
    requires p != [] && Stripped(p) && !IaWord(Lower(p)) && !HablaWord(Lower(p))
    ensures Classify(false, raw, botId, mentioned) == Chat(p, false)
  {
    DirectMentionFlags(raw, mp, p, botId, mentioned, i);
    StripStripped(p);
    RouteOfFlags(raw, botId, mentioned, Flags(false, false, true, p));
  }

  /** `<@id> p`, where `p` does not open with `ia` or `habla`, is
      answered with `p` as written, not spoken. */
  lemma DirectMentionRoutes(id: string, p: string, mentioned: bool)
    requires p != [] && Stripped(p) && !IaWord(Lower(p)) && !HablaWord(Lower(p))
    ensures Classify(false, "<@" + id + "> " + p, Some(id), mentioned) == Chat(p, false)
  {
    var mp := "<@" + id + ">";
    var raw := "<@" + id + "> " + p;
    assert raw == mp + (" " + p);
    MentionJoin(mp, p);
    PlainFirstMatch(raw, id);
    DirectMentionStep(raw, mp, p, Some(id), mentioned, 0);
  }

  /** A text that opens with `<@id>` matches the first spelling. */
  lemma PlainFirstMatch(raw: string, id: string)
    requires StartsWith(raw, "<@" + id + ">")
    ensures FirstMatch(raw, MentionPrefixes(Some(id)), 0)
  {
  }

  /** A text whose third character is `!` does not open with the plain
      mention spelling of an id that does not itself start with `!`. */
  lemma NicknameSpellingOnly(t: string, id: string)
    requires |t| > 2 && t[2] == '!'
    requires id == [] || id[0] != '!'
    ensures !StartsWith(t, "<@" + id + ">")
  {
    var plain := "<@" + id + ">";
    assert plain[2] != '!';
    assert |plain| <= |t| ==> t[..|plain|][2] == '!';
  }

  /** `<@!id> p` opens with the nickname spelling and not the plain one. */
  lemma NicknameFirstMatch(raw: string, id: string)
    requires id == [] || id[0] != '!'
    requires StartsWith(raw, "<@!" + id + ">")
    ensures FirstMatch(raw, MentionPrefixes(Some(id)), 1)
  {
    assert raw[..|"<@!" + id + ">"|][2] == '!';
    NicknameSpellingOnly(raw, id);
  }

  /** `<@!id> p` routes like `<@id> p`. */
  lemma NicknameMentionRoutes(id: string, p: string, mentioned: bool)
    requires id == [] || id[0] != '!'
    requires p != [] && Stripped(p) && !IaWord(Lower(p)) && !HablaWord(Lower(p))
    ensures Classify(false, "<@!" + id + "> " + p, Some(id), mentioned) == Chat(p, false)
  {
    var mp := "<@!" + id + ">";
    var raw := "<@!" + id + "> " + p;
    assert raw == mp + (" " + p);
    MentionJoin(mp, p);
    NicknameFirstMatch(raw, id);
    DirectMentionStep(raw, mp, p, Some(id), mentioned, 1);
  }

  /** A message that mentions the bot anywhere but at its start, and
      carries no tag, is answered with its whole stripped text. */
  lemma MidTextMentionRoutes(raw: string, id: string)
    requires Strip(raw) != [] && !StartsWith(Strip(raw), IaTag) && !StartsWith(Strip(raw), HablaTag)
    requires forall i :: 0 <= i < |MentionPrefixes(Some(id))| ==> !StartsWith(Strip(raw), MentionPrefixes(Some(id))[i])
    ensures Classify(false, raw, Some(id), true) == Chat(Strip(raw), false)
  {
    ReadFlagsNoMention(raw, Some(id), true);
    StripStripped(Strip(raw));
  }

  /** A `#habla` message whose voice join fails is answered and then also
      handed to the command parser. */
  lemma HablaJoinFailureReachesCommands(p: string, botId: Option<string>, mentioned: bool,
                                        response: string, ch: ChannelId)
    requires p != [] && Stripped(p) && |response| <= MaxTtsChars
    ensures Classify(false, HablaTag + " " + p, botId, mentioned) == Chat(p, true)
    ensures ProcessesCommands(false, HablaTag + " " + p, botId, mentioned, true, response, Some(ch), None, false)
  {
    HablaTagRoutes(p, botId, mentioned);
  }
}

=== FILE: search.dfy ===
/** Turning a `play` request into queued songs: URL detection, the query
    handed to the extractor, platform detection, and the enqueue loop that
    counts accepted songs. The extractor itself is a parameter. */
module Search {
  import opened Wrappers
  import opened Text
  import opened Queue
  import opened Registry

  // ---------------------------------------------------------------------
  // is_url and the extractor query
  // ---------------------------------------------------------------------

  /** A request is taken as a link when it starts with one of these. */
  predicate IsUrl(s: string) {
    StartsWith(s, "http://") || StartsWith(s, "https://") || StartsWith(s, "spotify:")
  }

  const SearchPrefix: string := "ytsearch:"

  /** The string handed to the extractor: links as they are, anything else
      as a YouTube search. */
  function ExtractorQuery(search: string): (q: string)
    ensures IsUrl(search) ==> q == search
    ensures !IsUrl(search) ==> q == SearchPrefix + search
  {
    if IsUrl(search) then search else SearchPrefix + search
  }

  /** Reads the user's request back out of an extractor query. */
  function RequestOfQuery(q: string): string {
    if !IsUrl(q) && StartsWith(q, SearchPrefix) then q[|SearchPrefix|..] else q
  }

  /** The extractor query loses nothing: the request can be read back, and
      the query is a link exactly when the request was. */
  lemma ExtractorQueryRoundTrip(search: string)
    ensures RequestOfQuery(ExtractorQuery(search)) == search
    ensures IsUrl(ExtractorQuery(search)) <==> IsUrl(search)
  {
    if !IsUrl(search) {
      var q := SearchPrefix + search;
      assert q[0] == 'y';
      assert q[..|SearchPrefix|] == SearchPrefix;
      assert q[|SearchPrefix|..] == search;
    }
  }

  // ---------------------------------------------------------------------
  // detect_platform
  // ---------------------------------------------------------------------

  datatype Platform = Spotify | SoundCloud | Deezer | YouTube | SearchPlatform {
    function Name(): string {
      match this
      case Spotify => "spotify"
      case SoundCloud => "soundcloud"
      case Deezer => "deezer"
      case YouTube => "youtube"
      case SearchPlatform => "search"
    }
  }

  predicate IsAsciiLetter(c: char) {
    'a' <= c <= 'z' || 'A' <= c <= 'Z'
  }

  predicate IsSchemeChar(c: char) {
    IsAsciiLetter(c) || '0' <= c <= '9' || c == '+' || c == '-' || c == '.'
  }

  /** What `urllib.parse.urlsplit` leaves once a leading `scheme:` is
      removed; a colon not preceded by a valid scheme is kept. */
  function AfterScheme(url: string): (r: string)
    ensures |r| <= |url|
  {
    match Find(url, ":")
    case Some(i) =>
      if i > 0 && IsAsciiLetter(url[0]) && (forall k :: 0 <= k < i ==> IsSchemeChar(url[k]))
      then url[i + 1..] else url
    case None => url
  }

  predicate IsNetlocDelimiter(c: char) {
    c == '/' || c == '?' || c == '#'
  }

  /** Index of the first `/`, `?` or `#`, or the length. */
  function DelimiterIndex(s: string): (k: nat)
    ensures k <= |s|
    ensures forall j :: 0 <= j < k ==> !IsNetlocDelimiter(s[j])
    ensures k < |s| ==> IsNetlocDelimiter(s[k])
  {
    if s == [] || IsNetlocDelimiter(s[0]) then 0 else 1 + DelimiterIndex(s[1..])
  }

  /** The network location `urlsplit` finds: the text after `//` up to the
      next delimiter, empty without `//`, and None where urlsplit raises
      because one square bracket lacks its partner. */
  function Netloc(url: string): (r: Option<string>)
    ensures r.Some? && !StartsWith(AfterScheme(url), "//") ==> r.value == ""
  {
    var rest := AfterScheme(url);
    if StartsWith(rest, "//") then
      var tail := rest[2..];
      var n := tail[..DelimiterIndex(tail)];
      if (Contains(n, "[") && !Contains(n, "]")) || (Contains(n, "]") && !Contains(n, "["))
      then None
      else Some(n)
    else Some("")
  }

  /** The first host name fragment found, in the fixed priority order. */
  function PlatformOfHost(host: string): (p: Platform)
    ensures p == Spotify <==> Contains(host, "spotify.com")
    ensures p == SoundCloud <==> !Contains(host, "spotify.com") && Contains(host, "soundcloud.com")
    ensures p == Deezer <==>
      !Contains(host, "spotify.com") && !Contains(host, "soundcloud.com") && Contains(host, "deezer.com")
    ensures p == YouTube <==>
      !Contains(host, "spotify.com") && !Contains(host, "soundcloud.com") && !Contains(host, "deezer.com")
      && (Contains(host, "youtube.com") || Contains(host, "youtu.be"))
  {
    if Contains(host, "spotify.com") then Spotify
    else if Contains(host, "soundcloud.com") then SoundCloud
    else if Contains(host, "deezer.com") then Deezer
    else if Contains(host, "youtube.com") || Contains(host, "youtu.be") then YouTube
    else SearchPlatform
  }

  /** `detect_platform`: a `spotify:` URI, else the lower-cased host name,
      else a plain search. */
  function DetectPlatform(text: string): (p: Platform)
    ensures StartsWith(text, "spotify:") ==> p == Spotify
    ensures !StartsWith(text, "spotify:") && Netloc(text).None? ==> p == SearchPlatform
    ensures !StartsWith(text, "spotify:") && Netloc(text).Some? ==> p == PlatformOfHost(Lower(Netloc(text).value))
  {
    if StartsWith(text, "spotify:") then Spotify
    else match Netloc(text)
      case None => SearchPlatform
      case Some(n) => PlatformOfHost(Lower(n))
  }

  /** Text without a colon or a leading `//` has no host, so it is a plain
      search whatever words it contains. */
  lemma PlainTextIsSearch(text: string)
    requires !Contains(text, ":") && !StartsWith(text, "//")
    ensures DetectPlatform(text) == SearchPlatform
  {
    assert !StartsWith(text, "spotify:") by {
      if StartsWith(text, "spotify:") {
        assert MatchesAt(text, ":", 7);
      }
    }
    assert AfterScheme(text) == text;
    assert Lower("") == "";
    NotContainsEmptyText("spotify.com");
    NotContainsEmptyText("soundcloud.com");
    NotContainsEmptyText("deezer.com");
    NotContainsEmptyText("youtube.com");
    NotContainsEmptyText("youtu.be");
  }

  /** The two classifiers agree on Spotify URIs: they are links, and their
      platform is Spotify. */
  lemma SpotifyUriIsUrl(text: string)
    requires StartsWith(text, "spotify:")
    ensures IsUrl(text) && DetectPlatform(text) == Spotify
  {
  }

  // ---------------------------------------------------------------------
  // enqueue_search
  // ---------------------------------------------------------------------

  /** One extractor result: a video page, or the whole answer when it is not
      a playlist. A None field is a key the extractor left out. */
  datatype Entry = Entry(webpageUrl: Option<string>, url: Option<string>, title: Option<string>)

  /** The extractor's answer: its own fields, and `entries` when it is a
      playlist or search result list. With errors ignored, an entry the
      extractor could not read is None. */
  datatype Info = Info(fields: Entry, entries: Option<seq<Option<Entry>>>)

  /** At most this many playlist entries are examined. */
  const PlaylistCap: nat := 200

  const UnknownTitle: string := "Unknown title"

  /** `webpage_url or url`: the page URL unless it is missing or empty, in
      which case the plain URL, whatever it is. */
  function EntryUrl(e: Entry): (r: Option<string>)
    ensures r.Some? && r != e.url ==> r == e.webpageUrl && r.value != ""
    ensures e.webpageUrl.Some? && e.webpageUrl.value != "" ==> r == e.webpageUrl
    ensures !(e.webpageUrl.Some? && e.webpageUrl.value != "") ==> r == e.url
  {
    if e.webpageUrl.Some? && e.webpageUrl.value != "" then e.webpageUrl else e.url
  }

  function EntrySong(e: Entry, requester: string, channel: ChannelId): Song {
    NewSong(EntryUrl(e), e.title.GetOr(UnknownTitle), requester, channel)
  }

  function EntrySongs(es: seq<Entry>, requester: string, channel: ChannelId): (r: seq<Song>)
    ensures |r| == |es|
    ensures forall i :: 0 <= i < |es| ==> r[i] == EntrySong(es[i], requester, channel)
  {
    seq(|es|, i requires 0 <= i < |es| => EntrySong(es[i], requester, channel))
  }

  /** The entries before the first missing one: the loop reads fields of
      each entry in turn, and reading a field of a missing entry raises. */
  function Present(es: seq<Option<Entry>>): (r: seq<Entry>)
    ensures |r| <= |es|
    ensures forall i :: 0 <= i < |r| ==> es[i] == Some(r[i])
    ensures |r| < |es| ==> es[|r|].None?
  {
    if es == [] || es[0].None? then []
    else
      var rest := Present(es[1..]);
      assert forall i :: 0 <= i < |rest| ==> es[i + 1] == es[1..][i];
      [es[0].value] + rest
  }

  /** A list with no missing entry is kept whole. */
  lemma PresentAllSome(es: seq<Option<Entry>>)
    requires forall k :: 0 <= k < |es| ==> es[k].Some?
    ensures |Present(es)| == |es|
    ensures forall k :: 0 <= k < |es| ==> Present(es)[k] == es[k].value
  {
  }

  /** Reading one more entry, when it is there, appends it. */
  lemma PresentExtend(es: seq<Option<Entry>>, i: nat)
    requires i < |es| && forall k :: 0 <= k <= i ==> es[k].Some?
    ensures Present(es[..i + 1]) == Present(es[..i]) + [es[i].value]
  {
    PresentAllSome(es[..i + 1]);
    PresentAllSome(es[..i]);
  }

  /** The first missing entry ends the reading. */
  lemma PresentStopsAt(es: seq<Option<Entry>>, i: nat)
    requires i < |es| && es[i].None? && forall k :: 0 <= k < i ==> es[k].Some?
    ensures Present(es) == Present(es[..i])
  {
    PresentAllSome(es[..i]);
  }

  /** The loop stops at the first missing entry among those it looks at. */
  lemma PresentStopsEarly(es: seq<Option<Entry>>, i: nat)
    requires i < Min(|es|, PlaylistCap) && es[i].None? && forall k :: 0 <= k < i ==> es[k].Some?
    ensures Present(es[..Min(|es|, PlaylistCap)]) == Present(es[..i])
  {
    var c := es[..Min(|es|, PlaylistCap)];
    PresentStopsAt(c, i);
    assert c[..i] == es[..i];
  }

  /** Offering one more present entry is one more enqueue. */
  lemma OfferStep(q0: MusicQueue, es: seq<Option<Entry>>, i: nat, requester: string, channel: ChannelId)
    requires i < |es| && forall k :: 0 <= k <= i ==> es[k].Some?
    ensures var prev := EnqueueAll(q0, EntrySongs(Present(es[..i]), requester, channel));
      var step := Enqueue(prev.0, EntrySong(es[i].value, requester, channel));
      EnqueueAll(q0, EntrySongs(Present(es[..i + 1]), requester, channel)) == (step.0, if step.1 then prev.1 + 1 else prev.1)
  {
    PresentExtend(es, i);
    assert es[..i + 1][..i] == es[..i];
    var prev := EntrySongs(Present(es[..i]), requester, channel);
    var song := EntrySong(es[i].value, requester, channel);
    assert EntrySongs(Present(es[..i + 1]), requester, channel) == prev + [song];
    EnqueueAllSnoc(q0, prev, song);
  }

  /** Offering a list with one more song at its end. */
  lemma EnqueueAllSnoc(q: MusicQueue, xs: seq<Song>, x: Song)
    ensures var prev := EnqueueAll(q, xs);
      var step := Enqueue(prev.0, x);
      EnqueueAll(q, xs + [x]) == (step.0, if step.1 then prev.1 + 1 else prev.1)
  {
    assert (xs + [x])[..|xs|] == xs;
  }

  /** `'entries' in info and info['entries']`: an empty list counts as no
      playlist, and the answer's own fields are queued instead. */
  predicate IsPlaylist(info: Info) {
    info.entries.Some? && info.entries.value != []
  }

  /** The playlist entries the loop looks at: the first 200. */
  function Considered(info: Info): seq<Option<Entry>>
    requires IsPlaylist(info)
  {
    var es := info.entries.value;
    es[..Min(|es|, PlaylistCap)]
  }

  /** The loop meets a missing entry before it is done: it raises there. */
  predicate Aborts(info: Info) {
    IsPlaylist(info) && exists i :: 0 <= i < |Considered(info)| && Considered(info)[i].None?
  }

  /** The extractor gave nothing back, or its playlist has a missing entry
      among the first 200. */
  datatype SearchError = NoInfo | MissingEntry

  /** The songs one extractor answer offers to the queue, in order: the
      playlist entries up to the first missing one and at most 200, or the
      answer itself. */
  function OfferedSongs(info: Info, requester: string, channel: ChannelId): (r: seq<Song>)
    ensures IsPlaylist(info) ==>
      var es := info.entries.value;
      && |r| <= Min(|es|, PlaylistCap)
      && (forall i :: 0 <= i < |r| ==> es[i].Some? && r[i] == EntrySong(es[i].value, requester, channel))
      && (|r| < Min(|es|, PlaylistCap) ==> es[|r|].None?)
    ensures IsPlaylist(info) ==> (|r| == Min(|info.entries.value|, PlaylistCap) <==> !Aborts(info))
    ensures !IsPlaylist(info) ==> r == [EntrySong(info.fields, requester, channel)]
  {
    if IsPlaylist(info) then
      var es := Considered(info);
      var r := EntrySongs(Present(es), requester, channel);
      r
    else [EntrySong(info.fields, requester, channel)]
  }

  /** The playlist loop: read entries in order, stop after 200, count
      the songs the queue accepts; a missing entry stops the loop early,
      which `complete` reports as false. */
  method OfferPlaylist(q0: MusicQueue, es: seq<Option<Entry>>, requester: string, channel: ChannelId)
    returns (q: MusicQueue, count: nat, complete: bool)
    ensures (q, count) == EnqueueAll(q0, EntrySongs(Present(es[..Min(|es|, PlaylistCap)]), requester, channel))
    ensures complete <==> forall i :: 0 <= i < Min(|es|, PlaylistCap) ==> es[i].Some?
  {
    q, count := q0, 0;
    var i := 0;
    while i < |es|
      invariant 0 <= i <= Min(|es|, PlaylistCap)
      invariant forall k :: 0 <= k < i ==> es[k].Some?
      invariant (q, count) == EnqueueAll(q0, EntrySongs(Present(es[..i]), requester, channel))
    {
      if i >= PlaylistCap {
        break;
      }
      if es[i].None? {
        PresentStopsEarly(es, i);
        return q, count, false;
      }
      OfferStep(q0, es, i, requester, channel);
      var step := Enqueue(q, EntrySong(es[i].value, requester, channel));
      q := step.0;
      if step.1 {
        count := count + 1;
      }
      i := i + 1;
    }
    assert es[..i] == es[..Min(|es|, PlaylistCap)];
    complete := true;
  }

  /** The songs one answer adds to a queue, how many were accepted, and
      whether the answer was read to its end. */
  method OfferAnswer(q0: MusicQueue, info: Info, requester: string, channel: ChannelId)
    returns (q: MusicQueue, count: nat, complete: bool)
    ensures (q, count) == EnqueueAll(q0, OfferedSongs(info, requester, channel))
    ensures complete <==> !Aborts(info)
  {
    if IsPlaylist(info) {
      q, count, complete := OfferPlaylist(q0, info.entries.value, requester, channel);
      assert complete <==> !Aborts(info) by {
        var es := info.entries.value;
        assert forall i :: 0 <= i < Min(|es|, PlaylistCap) ==> Considered(info)[i] == es[i];
      }
    } else {
      var song := EntrySong(info.fields, requester, channel);
      var step := Enqueue(q0, song);
      q := step.0;
      count := if step.1 then 1 else 0;
      complete := true;
      assert [song][..0] == [];
    }
  }

  /** How many songs an answer can add to a queue with room for `room`. */
  lemma OfferedCount(q0: MusicQueue, info: Info, requester: string, channel: ChannelId)
    requires Valid(q0)
    ensures var n := EnqueueAll(q0, OfferedSongs(info, requester, channel)).1;
      && n <= PlaylistCap
      && n <= Room(q0)
      && Valid(EnqueueAll(q0, OfferedSongs(info, requester, channel)).0)
      && (IsPlaylist(info) ==> n == Min(|OfferedSongs(info, requester, channel)|, Room(q0)))
      && (IsPlaylist(info) && !Aborts(info) ==> n == Min(Min(|info.entries.value|, PlaylistCap), Room(q0)))
      && (!IsPlaylist(info) ==> (n == 1 <==> Room(q0) > 0) && n <= 1)
  {
    EnqueueAllAcceptsPrefix(q0, OfferedSongs(info, requester, channel));
  }

  /** `enqueue_search` / the body of `play`: make sure the guild has a
      queue, ask the extractor, and offer the first 200 entries (or the
      single result) to the queue, counting accepted songs. The queue is
      created even when the extractor gives nothing back, which is an
      error; a missing playlist entry is an error too, raised after the
      entries before it were queued, and those stay queued. */
  method EnqueueSearch(qs: Queues, g: GuildId, requester: string, channel: ChannelId,
                       search: string, extract: string -> Option<Info>)
    returns (qs': Queues, added: Result<nat, SearchError>)
    ensures qs'.Keys == qs.Keys + {g}
    ensures forall h :: h in qs && h != g ==> qs'[h] == qs[h]
    ensures added == Failure(NoInfo) <==> extract(ExtractorQuery(search)).None?
    ensures added == Failure(MissingEntry) <==>
      extract(ExtractorQuery(search)).Some? && Aborts(extract(ExtractorQuery(search)).value)
    ensures extract(ExtractorQuery(search)).None? ==> qs' == EnsureQueue(qs, g).0
    ensures extract(ExtractorQuery(search)).Some? ==>
      var q0 := EnsureQueue(qs, g).1;
      var songs := OfferedSongs(extract(ExtractorQuery(search)).value, requester, channel);
      && qs' == EnsureQueue(qs, g).0[g := EnqueueAll(q0, songs).0]
      && (added.Success? ==> added.value == EnqueueAll(q0, songs).1)
    ensures added.Success? && Valid(EnsureQueue(qs, g).1) ==>
      var q0 := EnsureQueue(qs, g).1;
      var info := extract(ExtractorQuery(search)).value;
      && added.value <= PlaylistCap
      && added.value <= Room(q0)
      && Valid(qs'[g])
      && (IsPlaylist(info) ==> added.value == Min(Min(|info.entries.value|, PlaylistCap), Room(q0)))
      && (!IsPlaylist(info) ==> (added.value == 1 <==> Room(q0) > 0) && added.value <= 1)
  {
    var ensured := EnsureQueue(qs, g);
    var qs1, q0 := ensured.0, ensured.1;
    var answer := extract(ExtractorQuery(search));
    if answer.None? {
      return qs1, Failure(NoInfo);
    }
    var q, count, complete := OfferAnswer(q0, answer.value, requester, channel);
    qs' := qs1[g := q];
    added := if complete then Success(count) else Failure(MissingEntry);
    if Valid(q0) {
      OfferedCount(q0, answer.value, requester, channel);
    }
  }
}

=== FILE: speech.dfy ===
/** Speaking an assistant reply in the voice channel: the gates before
    synthesis, the markup cleaning, the pause/resume bracket around the
    spoken clip, the temporary audio file, and where the bot may speak.
    Synthesis, file writes and audio playback are represented by their
    success or failure only. */
module Speech {
  import opened Wrappers
  import opened Text
  import opened Queue
  import opened Registry
  import opened Playback

  /** Longest reply that is read aloud. */
  const MaxTtsChars: nat := 180

  /** Markdown characters deleted before synthesis. */
  const MarkupChars: set<char> := {'*', '_', '`'}

  /** `text.replace("*", "").replace("_", "").replace("`", "")`. */
  function CleanText(text: string): (r: string)
    ensures r == RemoveChars(text, MarkupChars)
    ensures |r| <= |text|
    ensures forall i :: 0 <= i < |r| ==> r[i] !in MarkupChars
  {
    var r := RemoveChars(RemoveChars(RemoveChars(text, {'*'}), {'_'}), {'`'});
    RemoveCharsTwice(text, {'*'}, {'_'});
    RemoveCharsTwice(text, {'*'} + {'_'}, {'`'});
    assert {'*'} + {'_'} + {'`'} == MarkupChars;
    r
  }

  /** Cleaning twice is cleaning once, and text without markup is spoken as
      written. */
  lemma CleanTextIdempotent(text: string)
    ensures CleanText(CleanText(text)) == CleanText(text)
    ensures (forall i :: 0 <= i < |text| ==> text[i] !in MarkupChars) ==> CleanText(text) == text
  {
    RemoveCharsAbsent(CleanText(text), MarkupChars);
    if forall i :: 0 <= i < |text| ==> text[i] !in MarkupChars {
      RemoveCharsAbsent(text, MarkupChars);
    }
  }

  /** What a speech request does to the outside world, in order. */
  datatype Step = WriteTemp | PauseMusic | StopMusic | PlayTts | RemoveTemp | ResumeMusic

  /** The results of the collaborators a speech request depends on:
      synthesis, writing the temporary file, building and starting the clip,
      and whether the voice client is still connected when the clip ends. */
  datatype TtsEnv = TtsEnv(synthOk: bool, writeOk: bool, playOk: bool, connectedAfter: bool)

  datatype SpeakResult = SpeakResult(ok: bool, voice: Option<Voice>, steps: seq<Step>)

  /** Whether the temporary file still exists after the steps. */
  function TempFileLeft(steps: seq<Step>): bool {
    if steps == [] then false
    else if steps[|steps| - 1] == RemoveTemp then false
    else if steps[|steps| - 1] == WriteTemp then true
    else TempFileLeft(steps[..|steps| - 1])
  }

  /** The checks made before anything is synthesised: a connected voice
      client and a short enough text. */
  predicate MaySpeak(vc: Option<Voice>, text: string) {
    vc.Some? && vc.value.connected && |text| <= MaxTtsChars
  }

  /** The steps of a speech request once its file is written: the file,
      a pause if music was playing, the clip if it started, the removal of
      the file, and a resume if one is due. */
  function Bracket(paused: bool, played: bool, resumed: bool): (s: seq<Step>)
    ensures (PauseMusic in s) <==> paused
    ensures (PlayTts in s) <==> played
    ensures (ResumeMusic in s) <==> resumed
    ensures StopMusic !in s
    ensures !TempFileLeft(s)
  {
    var s := [WriteTemp] + (if paused then [PauseMusic] else []) + (if played then [PlayTts] else [])
      + [RemoveTemp];
    assert TempFileLeft(s + [ResumeMusic]) == TempFileLeft(s) by {
      assert (s + [ResumeMusic])[..|s|] == s;
    }
    if resumed then s + [ResumeMusic] else s
  }

  /** `speak_text_in_voice`, parameterised by whether the error path that
      follows a failed clip start resumes the music (`resumeOnError`). */
  function SpeakWith(vc: Option<Voice>, text: string, env: TtsEnv, resumeOnError: bool): SpeakResult
  {
    if !MaySpeak(vc, text) || !env.synthOk then SpeakResult(false, vc, [])
    else
      var v := vc.value;
      var wasPlaying := v.audio == Playing;
      if !env.writeOk then SpeakResult(false, vc, [WriteTemp, RemoveTemp])
      else
        var paused := if wasPlaying then v.(audio := Paused) else v;
        var resume := wasPlaying && env.connectedAfter && (env.playOk || resumeOnError);
        var closed := paused.(connected := env.connectedAfter);
        var finalVoice := if resume then closed.(audio := Playing) else closed;
        SpeakResult(env.playOk, Some(finalVoice), Bracket(wasPlaying, env.playOk, resume))
  }

  /** `speak_text_in_voice` as written: the music is paused only if it was
      playing, and resumed by the clip's completion callback only if it was
      paused and the client is still connected. The error path after a
      failed clip start removes the file but does not resume. */
  function SpeakInVoiceAsWritten(vc: Option<Voice>, text: string, env: TtsEnv): (r: SpeakResult)
    ensures !MaySpeak(vc, text) || !env.synthOk ==> !r.ok && r.voice == vc && r.steps == []
    ensures r.ok <==> MaySpeak(vc, text) && env.synthOk && env.writeOk && env.playOk
    ensures (PauseMusic in r.steps) <==>
      MaySpeak(vc, text) && env.synthOk && env.writeOk && vc.value.audio == Playing
    ensures (ResumeMusic in r.steps) <==> (PauseMusic in r.steps) && env.playOk && env.connectedAfter
    ensures StopMusic !in r.steps
    ensures !TempFileLeft(r.steps)
    ensures r.voice.Some? == vc.Some? && (vc.Some? ==> r.voice.value.channel == vc.value.channel)
  {
    SpeakWith(vc, text, env, false)
  }

  /** The bracket restores the music when the clip plays: whatever the
      music was doing before, it is doing again afterwards, unless the
      client disconnected meanwhile. */
  lemma AsWrittenRestoresAfterClip(vc: Option<Voice>, text: string, env: TtsEnv)
    requires vc.Some? && env.playOk && env.connectedAfter
    ensures SpeakInVoiceAsWritten(vc, text, env).voice == vc
  {
  }

  /** The counterexample: music playing, synthesis and file fine, the clip
      fails to start (for instance the audio converter is missing). The
      call returns false and leaves the music paused for good. */
  lemma AsWrittenLeavesMusicPaused(v: Voice, text: string)
    requires v.connected && v.audio == Playing && |text| <= MaxTtsChars
    ensures var r := SpeakInVoiceAsWritten(Some(v), text, TtsEnv(true, true, false, true));
      && !r.ok && r.voice == Some(v.(audio := Paused))
      && PauseMusic in r.steps && ResumeMusic !in r.steps
  {
  }

  /** The speech bracket with the error path corrected to resume what it
      paused: every pause is matched by a resume while the client stays
      connected, on the success and on the error path. */
  function SpeakInVoice(vc: Option<Voice>, text: string, env: TtsEnv): (r: SpeakResult)
    ensures !MaySpeak(vc, text) || !env.synthOk ==> !r.ok && r.voice == vc && r.steps == []
    ensures r.ok <==> MaySpeak(vc, text) && env.synthOk && env.writeOk && env.playOk
    ensures (PauseMusic in r.steps) <==>
      MaySpeak(vc, text) && env.synthOk && env.writeOk && vc.value.audio == Playing
    ensures (ResumeMusic in r.steps) <==> (PauseMusic in r.steps) && env.connectedAfter
    ensures StopMusic !in r.steps
    ensures !TempFileLeft(r.steps)
    ensures vc.Some? && (env.connectedAfter || !MaySpeak(vc, text) || !env.synthOk || !env.writeOk) ==>
      r.voice == vc
  {
    SpeakWith(vc, text, env, true)
  }

  /** A track the user paused stays paused across speech: nothing pauses
      or resumes it. */
  lemma UserPauseSurvivesSpeech(v: Voice, text: string, env: TtsEnv)
    requires v.audio == Paused
    ensures PauseMusic !in SpeakInVoice(Some(v), text, env).steps
    ensures ResumeMusic !in SpeakInVoice(Some(v), text, env).steps
    ensures SpeakInVoice(Some(v), text, env).voice.value.audio == Paused
  {
  }

  /** The single-file `TTSService.speak`: same gates, but music that is
      playing is stopped, not paused, and speak itself never restarts it.
      The result is the voice client when speak returns. Stopping the track
      also fires the track's after-callback, which tries to start the next
      queued song: while the clip plays that finds the client busy, but when
      the clip fails to start it plays the queue's head
      (`StoppingFailureRestartsQueue`). */
  function SpeakStopping(vc: Option<Voice>, text: string, env: TtsEnv): (r: SpeakResult)
    ensures !MaySpeak(vc, text) || !env.synthOk ==> !r.ok && r.voice == vc && r.steps == []
    ensures r.ok <==> MaySpeak(vc, text) && env.synthOk && env.writeOk && env.playOk
    ensures (StopMusic in r.steps) <==>
      MaySpeak(vc, text) && env.synthOk && env.writeOk && vc.value.audio == Playing
    ensures PauseMusic !in r.steps && ResumeMusic !in r.steps
    ensures !TempFileLeft(r.steps)
    ensures (StopMusic in r.steps) ==> r.voice.Some? && r.voice.value.audio == Silent
  {
    if !MaySpeak(vc, text) || !env.synthOk then SpeakResult(false, vc, [])
    else
      var v := vc.value;
      if !env.writeOk then SpeakResult(false, vc, [WriteTemp, RemoveTemp])
      else
        var stopped := v.audio == Playing;
        var after := if stopped then v.(audio := Silent) else v;
        var before := [WriteTemp] + (if stopped then [StopMusic] else []);
        if env.playOk then SpeakResult(true, Some(after), before + [PlayTts, RemoveTemp])
        else SpeakResult(false, Some(after), before + [RemoveTemp])
  }

  /** When the clip fails to start after the music was stopped, the stopped
      track's after-callback finds the guild idle and starts the head of
      the queue, exactly as after a skip. */
  lemma StoppingFailureRestartsQueue(b: Bot, g: GuildId, text: string, env: TtsEnv,
                                     builds: Song -> bool)
    requires IsPlaying(b, g) && b.voices[g].connected && |text| <= MaxTtsChars
    requires env.synthOk && env.writeOk && !env.playOk
    requires g in b.queues && b.queues[g].items != []
    ensures var r := SpeakStopping(Some(b.voices[g]), text, env);
      var o := StartPlaybackIfNeeded(b.(voices := b.voices[g := r.voice.value]), g, builds).1;
      && !r.ok && StopMusic in r.steps && r.voice.value.audio == Silent
      && !o.NotStarted? && o.song == b.queues[g].items[0]
      && (o.Started? <==> builds(b.queues[g].items[0]))
  {
  }

  /** The two versions differ on playing music: the pausing one gives it
      back, the stopping one leaves the guild silent. */
  lemma PauseVersusStop(v: Voice, text: string)
    requires v.connected && v.audio == Playing && |text| <= MaxTtsChars
    ensures SpeakInVoice(Some(v), text, TtsEnv(true, true, true, true)).voice.value.audio == Playing
    ensures SpeakStopping(Some(v), text, TtsEnv(true, true, true, true)).voice.value.audio == Silent
  {
  }

  // ---------------------------------------------------------------------
  // Where the bot may speak
  // ---------------------------------------------------------------------

  datatype VoiceDecision = NotInVoice | JoinFailed | OtherChannel | SpeakIn(channel: ChannelId, joined: bool)

  /** The voice checks shared by `habla` and mention-triggered speech: the
      author must be in a voice channel; with no voice client the bot joins
      the author's channel; with one elsewhere it refuses. */
  function HablaVoiceDecision(authorChannel: Option<ChannelId>, vcChannel: Option<ChannelId>,
                              joinOk: bool): (d: VoiceDecision)
    ensures d == NotInVoice <==> authorChannel.None?
    ensures d == JoinFailed <==> authorChannel.Some? && vcChannel.None? && !joinOk
    ensures d == OtherChannel <==> authorChannel.Some? && vcChannel.Some? && vcChannel != authorChannel
    ensures d.SpeakIn? ==> authorChannel == Some(d.channel) && (d.joined <==> vcChannel.None?)
  {
    if authorChannel.None? then NotInVoice
    else if vcChannel.None? then
      (if joinOk then SpeakIn(authorChannel.value, true) else JoinFailed)
    else if vcChannel.value != authorChannel.value then OtherChannel
    else SpeakIn(authorChannel.value, false)
  }
}

=== FILE: stream.dfy ===
/** Picking the audio stream of a track from the extractor's answer, and
    the converter options built around it. The extractor itself is out of
    scope: its answer is the input. */
module Stream {
  import opened Wrappers

  /** One entry of the extractor's `formats` list; a missing key is None. */
  datatype Format = Format(acodec: Option<string>, url: Option<string>, ext: Option<string>)

  /** The parts of the extractor's answer that matter here. `url` is the
      top-level `url` when it is a string (None otherwise); `formats` is
      empty when absent; `headers` keep their order. */
  datatype StreamInfo = StreamInfo(url: Option<string>, formats: seq<Format>, headers: seq<(string, string)>)

  datatype StreamError = NoInfo | NoStreamUrl

  /** The containers the bot accepts for a format-list stream. */
  const AudioExts: set<string> := {"m4a", "webm", "opus", "ogg", "mp3"}

  /** Reconnect options of the audio converter. */
  const BeforeOptions: string := "-reconnect 1 -reconnect_streamed 1 -reconnect_delay_max 5"

  /** A format that carries audio (its codec is not the string "none"), a
      non-empty URL and an accepted container. */
  predicate Playable(f: Format) {
    && f.acodec != Some("none")
    && f.url.Some? && f.url.value != []
    && f.ext.Some? && f.ext.value in AudioExts
  }

  /** The index of the last playable format, if any. */
  function LastPlayable(fs: seq<Format>): (r: Option<nat>)
    ensures r.None? <==> forall j :: 0 <= j < |fs| ==> !Playable(fs[j])
    ensures r.Some? ==> r.value < |fs| && Playable(fs[r.value])
    ensures r.Some? ==> forall j :: r.value < j < |fs| ==> !Playable(fs[j])
    decreases |fs|
  {
    if fs == [] then None
    else if Playable(fs[|fs| - 1]) then Some(|fs| - 1)
    else
      var r := LastPlayable(fs[..|fs| - 1]);
      assert forall j :: 0 <= j < |fs| - 1 ==> fs[..|fs| - 1][j] == fs[j];
      r
  }

  /** The stream URL `_get_stream` settles on: no answer is an error; a
      top-level string URL wins outright (an empty one is an error);
      otherwise the URL of the last playable format, and an error when no
      format is playable. */
  function StreamChoice(info: Option<StreamInfo>): (r: Result<string, StreamError>)
    ensures info.None? <==> r == Failure(NoInfo)
    ensures r.Success? ==> r.value != []
    ensures info.Some? && info.value.url.None? ==>
      (r.Success? <==> exists i :: 0 <= i < |info.value.formats| && Playable(info.value.formats[i]))
  {
    match info
    case None => Failure(NoInfo)
    case Some(si) =>
      if si.url.Some? then
        if si.url.value != [] then Success(si.url.value) else Failure(NoStreamUrl)
      else
        match LastPlayable(si.formats)
        case None => Failure(NoStreamUrl)
        case Some(i) => Success(si.formats[i].url.value)
  }

  /** The stream-URL choice of `_get_stream`, scanning the formats from
      the end. */
  method SelectStreamUrl(info: Option<StreamInfo>) returns (r: Result<string, StreamError>)
    ensures r == StreamChoice(info)
    ensures info.None? <==> r == Failure(NoInfo)
    ensures info.Some? && info.value.url.Some? ==>
      r == (if info.value.url.value != [] then Success(info.value.url.value) else Failure(NoStreamUrl))
    ensures info.Some? && info.value.url.None? ==>
      var fs := info.value.formats;
      && (r.Success? <==> exists i :: 0 <= i < |fs| && Playable(fs[i]))
      && (r.Success? ==> exists i ::
            && 0 <= i < |fs| && Playable(fs[i]) && fs[i].url.value == r.value
            && forall j :: i < j < |fs| ==> !Playable(fs[j]))
      && (r.Failure? ==> r.error == NoStreamUrl)
    ensures r.Success? ==> r.value != []
  {
    if info.None? {
      return Failure(NoInfo);
    }
    var si := info.value;
    if si.url.Some? {
      if si.url.value != [] {
        return Success(si.url.value);
      }
      return Failure(NoStreamUrl);
    }
    var fs := si.formats;
    var i := |fs|;
    while i > 0
      invariant 0 <= i <= |fs|
      invariant forall j :: i <= j < |fs| ==> !Playable(fs[j])
      decreases i
    {
      i := i - 1;
      if Playable(fs[i]) {
        return Success(fs[i].url.value);
      }
    }
    return Failure(NoStreamUrl);
  }

  /** One header line as the converter expects it. */
  function HeaderLine(h: (string, string)): string {
    h.0 + ": " + h.1 + "\r\n"
  }

  /** The concatenated header lines, in the order the headers come. */
  function HeaderString(hs: seq<(string, string)>): (r: string)
    ensures |r| >= 4 * |hs|
    decreases |hs|
  {
    if hs == [] then "" else HeaderLine(hs[0]) + HeaderString(hs[1..])
  }

  /** Joining header lists joins their strings. */
  lemma {:induction false} HeaderStringAppend(a: seq<(string, string)>, b: seq<(string, string)>)
    ensures HeaderString(a + b) == HeaderString(a) + HeaderString(b)
    decreases |a|
  {
    if a == [] {
      assert a + b == b;
    } else {
      assert (a + b)[1..] == a[1..] + b;
      HeaderStringAppend(a[1..], b);
    }
  }

  /** The header string is empty exactly when there are no headers, and
      otherwise ends with a line break. */
  lemma HeaderStringEmpty(hs: seq<(string, string)>)
    ensures HeaderString(hs) == [] <==> hs == []
    ensures hs != [] ==> var s := HeaderString(hs); s[|s| - 2..] == "\r\n"
  {
    if hs != [] {
      var init := hs[..|hs| - 1];
      assert hs == init + [hs[|hs| - 1]];
      HeaderStringAppend(init, [hs[|hs| - 1]]);
      assert HeaderString([hs[|hs| - 1]]) == HeaderLine(hs[|hs| - 1]);
    }
  }

  /** The converter arguments of a track. */
  datatype Source = Source(streamUrl: string, beforeOptions: string, options: string)

  /** `build_ffmpeg_source`: the chosen stream with the reconnect options
      and the headers passed quoted to `-headers`; an extraction error is
      passed on. */
  method BuildSource(info: Option<StreamInfo>) returns (r: Result<Source, StreamError>)
    ensures info.None? ==> r == Failure(NoInfo)
    ensures r.Failure? <==> StreamChoice(info).Failure?
    ensures r.Failure? ==> r.error == StreamChoice(info).error
    ensures r.Success? ==> r.value.streamUrl == StreamChoice(info).value
    ensures r.Success? ==>
      && info.Some?
      && r.value.streamUrl != []
      && r.value.beforeOptions == BeforeOptions
      && r.value.options == "-headers \"" + HeaderString(info.value.headers) + "\""
    ensures info.Some? && info.value.url.Some? && info.value.url.value != [] ==>
      r.Success? && r.value.streamUrl == info.value.url.value
  {
    var url := SelectStreamUrl(info);
    if url.Failure? {
      return Failure(url.error);
    }
    var headers := HeaderString(info.value.headers);
    return Success(Source(url.value, BeforeOptions, "-headers \"" + headers + "\""));
  }
}

=== FILE: text.dfy ===
/** The handful of Python string operations the bot relies on, over ASCII
    text: `startswith`, `strip`, `lower`, `in`/`find`, `replace(c, "")`,
    decimal formatting of integers. */
module Text {
  import opened Wrappers

  /** Python's `str.isspace()` restricted to ASCII: tab, newline, vertical
      tab, form feed, carriage return, the four separators 0x1C-0x1F and
      space. */
  predicate IsSpace(c: char) {
    c == ' ' || (9 <= c as int <= 13) || (28 <= c as int <= 31)
  }

  predicate AllSpace(s: string) {
    forall i :: 0 <= i < |s| ==> IsSpace(s[i])
  }

  /** A string without leading or trailing whitespace. */
  predicate Stripped(s: string) {
    s == [] || (!IsSpace(s[0]) && !IsSpace(s[|s| - 1]))
  }

  predicate StartsWith(s: string, prefix: string) {
    |prefix| <= |s| && s[..|prefix|] == prefix
  }

  // ---------------------------------------------------------------------
  // strip()
  // ---------------------------------------------------------------------

  function TrimStart(s: string): (r: string)
    ensures |r| <= |s| && r == s[|s| - |r|..]
    ensures AllSpace(s[..|s| - |r|])
    ensures r == [] || !IsSpace(r[0])
  {
    if |s| > 0 && IsSpace(s[0]) then
      var r := TrimStart(s[1..]);
      assert s[1..][|s| - 1 - |r|..] == s[|s| - |r|..];
      assert forall i :: 1 <= i < |s| - |r| ==> s[i] == s[1..][..|s| - 1 - |r|][i - 1];
      r
    else
      assert s[..0] == [];
      s
  }

  function TrimEnd(s: string): (r: string)
    ensures |r| <= |s| && r == s[..|r|]
    ensures AllSpace(s[|r|..])
    ensures r == [] || !IsSpace(r[|r| - 1])
  {
    if |s| > 0 && IsSpace(s[|s| - 1]) then
      var r := TrimEnd(s[..|s| - 1]);
      assert s[..|s| - 1][..|r|] == s[..|r|];
      assert forall i :: |r| <= i < |s| - 1 ==> s[i] == s[..|s| - 1][|r|..][i - |r|];
      r
    else
      assert s[|s|..] == [];
      s
  }

  /** Python's `str.strip()` with no argument. */
  function Strip(s: string): (r: string)
    ensures Stripped(r)
    ensures |r| <= |s|
    ensures r == [] <==> AllSpace(s)
  {
    var t := TrimStart(s);
    assert TrimEnd(t) == [] ==> AllSpace(s) by {
      if TrimEnd(t) == [] {
        assert t[0..] == t;
        assert t == [];
        assert s[..|s|] == s;
      }
    }
    TrimEnd(t)
  }

  /** Stripping a string that has no surrounding whitespace changes nothing. */
  lemma StripStripped(s: string)
    requires Stripped(s)
    ensures Strip(s) == s
  {
  }

  /** Stripping removes exactly the whitespace padding around a stripped
      core. */
  lemma {:induction false} StripPadded(pre: string, core: string, post: string)
    requires AllSpace(pre) && AllSpace(post) && Stripped(core) && core != []
    ensures Strip(pre + core + post) == core
  {
    ConcatAssoc(pre, core, post);
    assert (core + post)[0] == core[0];
    StripStartPadded(pre, core + post);
    StripEndPadded(core, post);
  }

  lemma ConcatAssoc(a: string, b: string, c: string)
    ensures a + b + c == a + (b + c)
  {
  }

  lemma DropPrefix(a: string, b: string)
    ensures (a + b)[|a|..] == b
  {
  }

  /** A stripped text behind one space strips back to itself. */
  lemma StripAfterSpace(p: string)
    requires p != [] && Stripped(p)
    ensures Strip(" " + p) == p
  {
    assert " " + p + [] == " " + p;
    StripPadded(" ", p, []);
  }

  lemma {:induction false} StripStartPadded(pre: string, rest: string)
    requires AllSpace(pre)
    requires rest != [] && !IsSpace(rest[0])
    ensures TrimStart(pre + rest) == rest
    decreases |pre|
  {
    if pre == [] {
      assert pre + rest == rest;
    } else {
      assert (pre + rest)[1..] == pre[1..] + rest;
      StripStartPadded(pre[1..], rest);
    }
  }

  lemma {:induction false} StripEndPadded(core: string, post: string)
    requires AllSpace(post)
    requires core != [] && !IsSpace(core[|core| - 1])
    ensures TrimEnd(core + post) == core
    decreases |post|
  {
    if post == [] {
      assert core + post == core;
    } else {
      var p' := post[..|post| - 1];
      assert (core + post)[..|core + post| - 1] == core + p';
      StripEndPadded(core, p');
    }
  }

  // ---------------------------------------------------------------------
  // lower()
  // ---------------------------------------------------------------------

  function LowerChar(c: char): char {
    if 'A' <= c <= 'Z' then (c as int + 32) as char else c
  }

  /** Python's `str.lower()` on ASCII letters; every other character is
      kept, so the length never changes. */
  function Lower(s: string): (r: string)
    ensures |r| == |s|
    ensures forall i :: 0 <= i < |s| ==> r[i] == LowerChar(s[i])
  {
    seq(|s|, i requires 0 <= i < |s| => LowerChar(s[i]))
  }

  /** Text without capital letters is its own lower-case form. */
  lemma LowerNoCapitals(s: string)
    requires forall i :: 0 <= i < |s| ==> !('A' <= s[i] <= 'Z')
    ensures Lower(s) == s
  {
    assert forall i :: 0 <= i < |s| ==> Lower(s)[i] == s[i];
  }

  // ---------------------------------------------------------------------
  // `sub in s` and `s.find(sub)`
  // ---------------------------------------------------------------------

  predicate MatchesAt(s: string, sub: string, i: int) {
    0 <= i && i + |sub| <= |s| && s[i..i + |sub|] == sub
  }

  /** `i` is the first index at which `sub` occurs in `s`. */
  predicate FirstOccurrence(s: string, sub: string, i: int) {
    MatchesAt(s, sub, i) && forall j :: 0 <= j < i ==> !MatchesAt(s, sub, j)
  }

  /** Python's `sub in s`. */
  predicate Contains(s: string, sub: string) {
    exists i | 0 <= i <= |s| :: MatchesAt(s, sub, i)
  }

  function FindFrom(s: string, sub: string, from: nat): (r: Option<nat>)
    ensures r.Some? ==> from <= r.value && r.value + |sub| <= |s| && MatchesAt(s, sub, r.value)
    ensures r.Some? ==> forall j :: from <= j < r.value ==> !MatchesAt(s, sub, j)
    ensures r.None? ==> forall j :: from <= j ==> !MatchesAt(s, sub, j)
    decreases |s| - from
  {
    if from + |sub| > |s| then None
    else if s[from..from + |sub|] == sub then Some(from)
    else FindFrom(s, sub, from + 1)
  }

  /** Python's `s.find(sub)`, with None for -1: the first index at which
      `sub` occurs. */
  function Find(s: string, sub: string): (r: Option<nat>)
    ensures r.Some? <==> Contains(s, sub)
    ensures r.Some? ==> r.value + |sub| <= |s| && MatchesAt(s, sub, r.value)
    ensures r.Some? ==> forall j :: 0 <= j < r.value ==> !MatchesAt(s, sub, j)
    ensures forall i :: FirstOccurrence(s, sub, i) ==> r == Some(i)
  {
    FindFrom(s, sub, 0)
  }

  lemma NotContainsEmptyText(sub: string)
    requires sub != []
    ensures !Contains([], sub)
  {
  }

  // ---------------------------------------------------------------------
  // replace(c, "")
  // ---------------------------------------------------------------------

  /** The string with every character of `cs` deleted, order kept. */
  function RemoveChars(s: string, cs: set<char>): (r: string)
    ensures |r| <= |s|
    ensures forall i :: 0 <= i < |r| ==> r[i] !in cs
  {
    if s == [] then []
    else (if s[0] in cs then [] else [s[0]]) + RemoveChars(s[1..], cs)
  }

  /** Removing one set of characters after another is removing their union. */
  lemma {:induction false} RemoveCharsTwice(s: string, a: set<char>, b: set<char>)
    ensures RemoveChars(RemoveChars(s, a), b) == RemoveChars(s, a + b)
    decreases |s|
  {
    if s != [] {
      RemoveCharsTwice(s[1..], a, b);
      var head := if s[0] in a then [] else [s[0]];
      RemoveCharsAppend(head, RemoveChars(s[1..], a), b);
      if s[0] !in a {
        assert RemoveChars(head, b) == if s[0] in b then [] else [s[0]] by {
          assert head[1..] == [];
        }
      }
    }
  }

  lemma {:induction false} RemoveCharsAppend(x: string, y: string, cs: set<char>)
    ensures RemoveChars(x + y, cs) == RemoveChars(x, cs) + RemoveChars(y, cs)
    decreases |x|
  {
    if x == [] {
      assert x + y == y;
    } else {
      assert (x + y)[1..] == x[1..] + y;
      RemoveCharsAppend(x[1..], y, cs);
    }
  }

  /** A string with none of the characters is left alone. */
  lemma {:induction false} RemoveCharsAbsent(s: string, cs: set<char>)
    requires forall i :: 0 <= i < |s| ==> s[i] !in cs
    ensures RemoveChars(s, cs) == s
    decreases |s|
  {
    if s != [] {
      RemoveCharsAbsent(s[1..], cs);
    }
  }

  // ---------------------------------------------------------------------
  // Decimal integers
  // ---------------------------------------------------------------------

  predicate IsDigit(c: char) {
    '0' <= c <= '9'
  }

  function DigitChar(d: nat): (c: char)
    requires d < 10
    ensures IsDigit(c)
  {
    ('0' as int + d) as char
  }

  function DigitValue(c: char): nat
    requires IsDigit(c)
  {
    c as int - '0' as int
  }

  /** Python's `str(n)` for a non-negative integer. */
  function NatToString(n: nat): (r: string)
    ensures r != []
    ensures forall i :: 0 <= i < |r| ==> IsDigit(r[i])
  {
    if n < 10 then [DigitChar(n)] else NatToString(n / 10) + [DigitChar(n % 10)]
  }

  /** Python's `int(s)` on a string of decimal digits. */
  function ParseNat(s: string): nat
    requires forall i :: 0 <= i < |s| ==> IsDigit(s[i])
  {
    if s == [] then 0 else ParseNat(s[..|s| - 1]) * 10 + DigitValue(s[|s| - 1])
  }

  /** Parsing the decimal rendering of a number gives the number back. */
  lemma {:induction false} ParseNatToString(n: nat)
    ensures ParseNat(NatToString(n)) == n
  {
    if n >= 10 {
      var s := NatToString(n);
      assert s[..|s| - 1] == NatToString(n / 10);
      ParseNatToString(n / 10);
    }
  }

  /** A leading zero does not change the parsed value. */
  lemma {:induction false} ParseNatLeadingZero(s: string)
    requires forall i :: 0 <= i < |s| ==> IsDigit(s[i])
    ensures ParseNat(['0'] + s) == ParseNat(s)
    decreases |s|
  {
    if s != [] {
      var t := ['0'] + s;
      assert t[..|t| - 1] == ['0'] + s[..|s| - 1];
      ParseNatLeadingZero(s[..|s| - 1]);
    } else {
      assert (['0'] + s)[..0] == [];
    }
  }
}

=== FILE: wrappers.dfy ===
/** Option and Result: the shapes the bot uses for "maybe absent" values
    (Python's None) and for operations that raise. */
module Wrappers {

  datatype Option<+T> = None | Some(value: T) {
    function GetOr(default: T): T {
      match this
      case Some(v) => v
      case None => default
    }
  }

  datatype Result<+R, +E> = Success(value: R) | Failure(error: E)
}
